=== FILE: README.md ===
# PowerApps schema extractor and exporters, modelled in Dafny

This project models the core of PowerApps.JsonSchema, a tool that reads the
table ("entity") metadata of a Power Apps / Dataverse environment into a
plain schema and writes that schema out as a CSV file or an Excel workbook.
It models three source files:

- `SchemaExtractor.cs`, in four parts:
  - resolving a named solution to the logical names of its entities (`GetSolutionEntities`);
  - the solution filter;
  - the ascending logical-name order of entities and attributes, with the attribute prefix and exclusion filters;
  - flattening the polymorphic attribute metadata into one record, option sets (`ExtractOptionSet`), and relationships.
- `Models.cs`: the six records and their defaults.
- `ExcelExporter.cs`, in three parts:
  - the CSV export: header, one line per attribute, quote escaping (`EscapeCsv`);
  - the workbook as an ordered list of sheets, each a name and rows of cell texts: the summary, one sheet per entity with sanitised names, and the option-set listing;
  - the agreement between the summary counts and the rest of the output.

Layout:

| file | module | what |
|---|---|---|
| wrappers.dfy | `Wrappers` | `Option` and `Result` |
| text.dfy | `Text` | .NET whitespace, ordinal-ignore-case prefix test, `Replace`, `Join`, integer text and its parser |
| ordering.dfy | `Ordering` | `OrderBy` as a stable sort by a culture sort key; `Sum` |
| models.dfy | `Models` | the records of Models.cs |
| metadata.dfy | `Metadata` | the SDK metadata the extractor reads, and the service's answers as data |
| extractor.dfy | `SchemaExtractor` | the extraction pipeline |
| extractor_props.dfy | `ExtractorProperties` | properties of the extraction that span several calls |
| csv_export.dfy | `CsvExport` | `ExportToCsv` and `EscapeCsv`, with a reader for the round trip |
| excel_export.dfy | `ExcelExporter` | `ExportToExcel` and its sheets |

Modelling choices:

- **The remote service.** It is a `ServiceSnapshot` value with four parts:
  - the entity metadata that `RetrieveAllEntitiesRequest` returns;
  - the ids of the rows the solution query returns;
  - the rows of the `solutioncomponent` table;
  - a lookup from metadata id to logical name, whose `None` stands for a `RetrieveEntityRequest` that throws.

  The service does the component query's own filtering (solution id and component type 1). The model does that filtering itself.
- **String order.** `OrderBy(e => e.LogicalName)` uses the current culture's comparer. That comparer orders strings as `CompareInfo.GetSortKey` orders their sort keys, so the culture becomes a parameter `key: string -> seq<int>`. Strings are ranked by the lexicographic order of their keys. `OrderBy` is a stable sort by that rank. `OrderBy(o => o.Value)` ranks options by `[value]`.
- **Nullable values.** Every nullable value is an `Option`. Every `?? false` is an explicit default.
- **Values the extractor reads from its surroundings.** The clock, the organisation endpoint and the organisation's friendly name are an `Environment` parameter.
- **Formatting.** `DateTime.ToString("yyyy-MM-dd HH:mm:ss")` and `double.ToString()` are a `Formats` parameter. Integers are written as decimal text and proved to read back.

Behaviour of the code that is easy to miss:

- Relationships are read from the solution-filtered entity sequence in its original order. This is the lazily filtered `entities` at `SchemaExtractor.cs:144`: neither the sorted list nor all entities.
- The extractor keeps the options of an option set in source order. Only the Excel export sorts them by value.
- A many-to-many relationship that the service lists on both of its entities is recorded twice. Nothing removes the duplicate.

## Model

| member | source | states |
|---|---|---|
| Text.IntToStringRoundTrip | ExcelExporter.cs:193 | the decimal text written for an integer (`ToString()`) parses back to that integer |
| Text.NatToStringRoundTrip | ExcelExporter.cs:193 | the digit string of a natural number parses back to it |
| Ordering.SortBy | SchemaExtractor.cs:52 | `OrderBy` returns a permutation of its input, sorted by key |
| Ordering.SortStable | SchemaExtractor.cs:52 | `OrderBy` is stable: elements with equal keys keep their input order |
| Ordering.SortSorted | SchemaExtractor.cs:88 | sorting an already sorted sequence changes nothing |
| Ordering.SortIdempotent | ExcelExporter.cs:95 | re-sorting the extractor's sorted output gives the same order again |
| Ordering.SortMembers | SchemaExtractor.cs:52 | sorting keeps exactly the elements it is given |
| Ordering.SumPermutation | ExcelExporter.cs:46 | `Sum` does not depend on the order of the entities |
| Ordering.MapPermutation | SchemaExtractor.cs:52-83 | `Select` over a reordering gives a reordering of the projection |
| Ordering.MapReorder | ExcelExporter.cs:73-81 | `Select` over a reordering: every image comes from some input, every input has its image, and the multisets agree |
| Ordering.FlatMapPermutation | ExcelExporter.cs:259-275 | the nested `foreach` over a reordering of the outer sequence gives a reordering of the output |
| Ordering.FlatMapBlock | ExcelExporter.cs:224-244 | the output of the `k`-th outer element is one contiguous block of the nested `foreach`'s output |
| Ordering.FlatMapSorted | ExcelExporter.cs:224-244 | when the outer sequence is sorted and every inner item carries its outer element's key, the nested output is sorted by that key |
| Ordering.KeyLeTotal | SchemaExtractor.cs:52 | any two sort keys are comparable |
| Ordering.KeyLeTransitive | SchemaExtractor.cs:52 | the key order is transitive |
| Ordering.KeyLeAntisymmetric | SchemaExtractor.cs:52 | keys ordered both ways are equal |
| Ordering.SingletonKeyLe | ExcelExporter.cs:229 | ranking options by `[Value]` orders them as their integer values |
| Models.NewSchema | Models.cs:3-12 | a new schema has empty URL and organisation name, no solution name or components, and no entities or relationships |
| Models.NewEntity | Models.cs:14-27 | a new entity has empty names, no optional texts, both flags false, and no attributes |
| Models.NewOptionSet | Models.cs:52-57 | a new option set has no name, is not global, and has no options |
| Models.NewRelationship | Models.cs:65-82 | a new relationship has empty schema name and type, none of the seven optional fields, and is not custom |
| SchemaExtractor.ExtractOption | SchemaExtractor.cs:260-264 | a missing option value becomes 0; the label is carried over |
| SchemaExtractor.ExtractOptionSet | SchemaExtractor.cs:251-297 | an option set is produced exactly for picklist, state and status attributes whose option set is present; it is global only for a picklist whose flag is true; name and options are copied pointwise in source order |
| SchemaExtractor.ToReal | SchemaExtractor.cs:121-128 | integer bounds widen to `double` exactly, and absence is kept |
| SchemaExtractor.NormalizeAttribute | SchemaExtractor.cs:104-133 | each nullable flag is true exactly when the source says true; each type-conditional field is present exactly when a subclass that defines it has a non-null value, taken from the first such subclass in the `??` chain |
| SchemaExtractor.NormalizeKept | SchemaExtractor.cs:88-133 | an attribute is kept exactly when it passes the prefix filter (case-insensitive, skipped for a blank prefix) and the exclusion filter; kept names come from the input |
| SchemaExtractor.NormalizeKeptSorted | SchemaExtractor.cs:88-102 | filtering keeps the logical-name order of what it keeps |
| SchemaExtractor.EntityAttributes | SchemaExtractor.cs:86-135 | an entity without an attribute list gets none; otherwise exactly the kept attributes, normalised and sorted by logical name |
| SchemaExtractor.EntityAttributesOnePerKept | SchemaExtractor.cs:86-135 | an entity's attribute records are, as a multiset, one normalised record per kept source attribute, duplicates included |
| SchemaExtractor.NormalizeKeptPermutation | SchemaExtractor.cs:88-133 | filtering and normalising a reordering of the attributes gives a reordering of the result |
| SchemaExtractor.ExtractEntity | SchemaExtractor.cs:71-83 | entity texts are copied; `IsCustomEntity` and `IsActivity` are true exactly when the source says true |
| SchemaExtractor.OneToManyRecord | SchemaExtractor.cs:150-159 | a 1:N record is tagged "OneToMany", copies its four fields, and carries no N:N field |
| SchemaExtractor.ManyToManyRecord | SchemaExtractor.cs:167-175 | an N:N record is tagged "ManyToMany", copies its three fields, and carries no 1:N field |
| SchemaExtractor.EntityRelationships | SchemaExtractor.cs:146-177 | one entity's records: a 1:N record per entry of its 1:N list, in list order, then an N:N record per entry of its N:N list, in list order; a missing list contributes nothing |
| SchemaExtractor.ExtractRelationships | SchemaExtractor.cs:142-178 | as many records as relationships listed on the given entities, each well tagged, and exactly those listed on them; order and multiplicity follow from the three lemmas below |
| SchemaExtractor.ExtractRelationshipsConcat | SchemaExtractor.cs:144-178 | the records of two runs of entities are those of the first run followed by those of the second |
| SchemaExtractor.ExtractRelationshipsSingle | SchemaExtractor.cs:144-178 | a single entity contributes exactly its own records |
| SchemaExtractor.RelationshipBlock | SchemaExtractor.cs:144-178 | the `k`-th entity's records form one contiguous block, placed right after the records of the entities before it |
| SchemaExtractor.EntityComponents | SchemaExtractor.cs:211-222 | the component query returns exactly the rows of the solution whose type is 1 (Entity) |
| SchemaExtractor.CollectEntityNames | SchemaExtractor.cs:226-246 | a name is collected exactly when some component's metadata lookup returns it; failed lookups contribute nothing |
| SchemaExtractor.GetSolutionEntities | SchemaExtractor.cs:183-249 | fails with "Solution '<name>' not found" exactly when the solution query returns no row; otherwise the names of the first row's entity components whose lookup succeeds |
| SchemaExtractor.SelectEntities | SchemaExtractor.cs:47 | keeps exactly the entities whose logical name the solution holds |
| SchemaExtractor.SelectEntitiesConcat | SchemaExtractor.cs:47 | the filter distributes over concatenation, so it keeps the source order of what it keeps |
| SchemaExtractor.ExtractedRecordsSorted | SchemaExtractor.cs:52-55 | entity records built in logical-name order stay in that order |
| SchemaExtractor.Assemble | SchemaExtractor.cs:22-30 | the schema records the clock, the endpoint, the organisation, the solution name and the components; its entities are, as a multiset, one record per selected entity, sorted by logical name |
| SchemaExtractor.ExtractSchema | SchemaExtractor.cs:20-181 | a blank solution name covers all entities with no components recorded; an unknown solution fails; otherwise exactly the solution's entities, one record per selected entity. Entities and attributes are sorted by logical name, and relationships come from the scoped entities |
| ExtractorProperties.TypeConditionalFields | SchemaExtractor.cs:118-132 | a normalised attribute carries a type-specific field exactly when its subclass defines it and has a value; there are never zero placeholders |
| ExtractorProperties.ZeroBoundIsPresent | SchemaExtractor.cs:121-128 | an integer attribute with minimum 0 and no maximum yields MinValue 0.0 and no MaxValue |
| ExtractorProperties.OptionSetVariantAgnostic | SchemaExtractor.cs:251-297 | the three enumeration subclasses give the same record for the same data, except that state and status are never global |
| ExtractorProperties.OptionsKeepSourceOrder | SchemaExtractor.cs:260-264 | options [2, null] come out as [2, 0], unsorted |
| ExtractorProperties.AttributeFilterExample | SchemaExtractor.cs:91-102 | prefix `new_` with exclusion {new_legacyfield} keeps new_name and NEW_Name, and drops new_legacyfield and other_field |
| ExtractorProperties.NoFiltersKeepAll | SchemaExtractor.cs:91-102 | a blank prefix and no exclusion set keep every attribute |
| ExtractorProperties.FailedLookupIsSkipped | SchemaExtractor.cs:237-245 | a component whose lookup fails is skipped and resolution still succeeds with the others |
| ExtractorProperties.FirstSolutionRowDecides | SchemaExtractor.cs:208 | only the first row of the solution query matters |
| ExtractorProperties.BlankSolutionNameIsNoFilter | SchemaExtractor.cs:44-50 | a whitespace-only solution name filters nothing, records no components, and is kept as the solution name |
| ExtractorProperties.RelationshipsIgnoreAttributeFilters | SchemaExtractor.cs:142-178 | the attribute filters never change the relationships |
| ExtractorProperties.RelationshipsFollowSolutionFilter | SchemaExtractor.cs:142-178 | under a solution filter, the relationships are exactly those listed on the solution's entities |
| ExtractorProperties.ManyToManyOnBothEndsIsRecordedTwice | SchemaExtractor.cs:163-177 | an N:N relationship listed on both of its entities appears twice |
| CsvExport.EscapeCsv | ExcelExporter.cs:280-287 | empty text is returned unchanged; otherwise each quote is doubled, so the length grows by the quote count and collapsing doubled quotes gives the value back |
| CsvExport.CollapseDoubled | ExcelExporter.cs:286 | collapsing doubled quotes undoes the doubling |
| CsvExport.QuoteFreeUnchanged | ExcelExporter.cs:286 | escaping leaves text without quotes unchanged |
| CsvExport.DataLines | ExcelExporter.cs:259-275 | the data lines are, as a multiset, exactly one line per (entity, attribute) pair in the stored schema; each line belongs to some entity and attribute |
| CsvExport.CsvCoversEveryAttribute | ExcelExporter.cs:259-275 | every attribute of every entity has its line |
| CsvExport.ExportToCsv | ExcelExporter.cs:250-278 | the header, then, as a multiset, exactly one line per attribute of the schema; every attribute has its line |
| CsvExport.DataLinesSortAttributes | ExcelExporter.cs:259-261 | the data lines are the stored-order lines of the entities with their attributes sorted by logical name |
| CsvExport.CsvInKeyOrder | ExcelExporter.cs:250-278 | for any schema, sorted or not, the file is the header and then the lines of the entities and their attributes in logical-name order |
| CsvExport.ParseQuoted | ExcelExporter.cs:263-272 | a line of quoted, quote-doubled fields reads back as its values |
| CsvExport.CsvLineRoundTrip | ExcelExporter.cs:263-272 | a CSV reader recovers the ten values of a line, provided the fields written unescaped hold no quote |
| CsvExport.CsvCells | ExcelExporter.cs:263-272 | Display Name and Description are escaped with `EscapeCsv`; the other eight values are written as they are |
| CsvExport.RawTargetQuoteBreaksLine | ExcelExporter.cs:272 | a lookup target named `"`, written without escaping, makes the line unreadable even when every other value is free of quotes |
| CsvExport.CsvFollowsStoredOrder | ExcelExporter.cs:259-261 | for a schema whose entities and attributes are already sorted, the lines follow the stored order |
| ExcelExporter.SanitizeSheetName | ExcelExporter.cs:109-114 | the sheet name is the logical name cut to 31 characters, with each of `: / \ ? * [ ]` replaced by `_` |
| ExcelExporter.SanitizedNameValid | ExcelExporter.cs:108-114 | every sanitised name is at most 31 characters long and holds no forbidden character |
| ExcelExporter.ValidSheetNameUnchanged | ExcelExporter.cs:108-114 | a name that is already valid is kept as is |
| ExcelExporter.SanitizeIdempotent | ExcelExporter.cs:108-114 | sanitising twice is sanitising once |
| ExcelExporter.SanitizeCollides | ExcelExporter.cs:109-114 | names that agree on their first 31 characters, up to which forbidden character they hold, get the same sheet name |
| ExcelExporter.EntitySummaryRow | ExcelExporter.cs:75-79 | an entity row shows the name, the display name or "", the attribute count, and "Yes" or "No" for the custom and activity flags |
| Models.InKeyOrder | ExcelExporter.cs:259-261 | entity `i` is the `i`-th entity of the stable logical-name sort, unchanged except that its attributes are reordered (same multiset) into logical-name order |
| ExcelExporter.SummaryHead | ExcelExporter.cs:11-65 | the title is the solution name unless that is blank; the Solution cell falls back to "(All metadata)" only when there is no name; the three statistics cells show the entity, attribute and relationship counts |
| ExcelExporter.EntitySummaryRows | ExcelExporter.cs:71-81 | as a multiset, exactly one row per entity; every entity has its row; rows in logical-name order |
| ExcelExporter.SummarySheet | ExcelExporter.cs:6-85 | the sheet is named "Summary" and has 14 header rows followed by one row per entity |
| ExcelExporter.EntityInfoRows | ExcelExporter.cs:118-181 | the information block shows the entity's texts ("" when absent) and Yes/No flags; row 13 is the attribute header |
| ExcelExporter.IntCell | ExcelExporter.cs:193 | an absent integer is an empty cell; a present one reads back as itself |
| ExcelExporter.AttributeRow | ExcelExporter.cs:187-197 | each of the eleven cells: the logical name; display name, type, description, required level and format, or "" when absent; the custom flag as Yes/No; Max Length empty exactly when absent and otherwise reading as the length; Min and Max Value as the number's text or ""; targets joined with ", " or "" |
| ExcelExporter.AttributeRows | ExcelExporter.cs:184-199 | as a multiset, exactly one row per attribute; every attribute has its row; rows in logical-name order |
| ExcelExporter.EntitySheet | ExcelExporter.cs:106-203 | the sheet takes the sanitised name and is the information block followed by the attribute rows |
| ExcelExporter.OptionsByValue | ExcelExporter.cs:229 | the options of a set, reordered, ascending by value |
| ExcelExporter.OptionRows | ExcelExporter.cs:226-242 | row `i` shows the `i`-th option by value; every row names the entity and the attribute; the set's name and Yes/No global flag appear on the first row only |
| ExcelExporter.OptionRowsCorrespond | ExcelExporter.cs:229-242 | each row shows an option of the set, and each option of the set is shown by a row |
| ExcelExporter.AscendingFromSorted | ExcelExporter.cs:229 | rows built from options sorted by value show ascending values |
| ExcelExporter.WithOptionSet | ExcelExporter.cs:226 | keeps exactly the attributes with an option set, without changing the option total |
| ExcelExporter.OptionAttributes | ExcelExporter.cs:226 | exactly the entity's attributes with an option set, in logical-name order, with the same option total |
| ExcelExporter.AttributeOptionRows | ExcelExporter.cs:226-243 | one row per option of the given attributes; each row is an option row of one of them, and each of their options has its row |
| ExcelExporter.EntityOptionRows | ExcelExporter.cs:226-243 | one row per option of the entity's attributes, each row an option row of one of them and each option listed, ordered by the attribute column |
| ExcelExporter.AttributeOptionBlock | ExcelExporter.cs:226-243 | the rows of an entity's `m`-th attribute with an option set are one contiguous block, equal to that attribute's option rows |
| ExcelExporter.EntitiesOptionRows | ExcelExporter.cs:224-244 | one row per option over all entities; each row is an option row of some entity, and each option of each entity has its row |
| ExcelExporter.OptionSetsSheet | ExcelExporter.cs:205-248 | the sheet is named "Option Sets", with the header, then one row per option of every attribute with an option set; each row belongs to some entity, attribute and option and each such option has its row; rows ordered by the entity column |
| ExcelExporter.EntityOptionBlock | ExcelExporter.cs:224-244 | the Option Sets rows of the `k`-th entity in logical-name order form one contiguous block, equal to that entity's option rows |
| ExcelExporter.SheetForEveryEntity | ExcelExporter.cs:95-98 | the sheets of a reordering of the entities hold every entity's sheet, and as a multiset equal the entities' sheets |
| ExcelExporter.EntitySheets | ExcelExporter.cs:95-98 | sheet `i` is the sheet of the `i`-th entity in logical-name order; as a multiset, one sheet per entity, every entity with its sheet, with valid names |
| ExcelExporter.ExportToExcel | ExcelExporter.cs:87-104 | the workbook is Summary, then the entity sheets in logical-name order, then Option Sets |
| ExcelExporter.EntitySheetsAttributeRows | ExcelExporter.cs:184-199 | the entity sheets together hold one attribute row per attribute of the schema |
| ExcelExporter.SummaryAgreesWithExports | ExcelExporter.cs:41-47 | Total Entities equals the number of entity sheets; Total Attributes equals both the number of CSV data lines and the attribute rows of all entity sheets |
| ExcelExporter.BookEntitySheet | ExcelExporter.cs:87-104 | for any schema, workbook sheet `i + 1` is the sheet of the `i`-th entity in logical-name order |
| ExcelExporter.ExtractedSchemaSheetOrder | ExcelExporter.cs:95-98 | for an extracted (sorted) schema, the entity sheets follow the stored entity order |
| ExcelExporter.EntitySheetNamesValid | ExcelExporter.cs:108-116 | every entity sheet name the workbook uses is at most 31 characters long and free of forbidden characters |

## Left out

- I/O and asynchrony: `ServiceClient`, `await`, `File.WriteAllLines` and `SaveAs`. The service's answers are inputs, and the outputs are values: lines, and sheets of cell texts.
- Console output: progress and verbose messages have no effect on the result.
- Program.cs (argument parsing, JSON serialisation, the choice of output format) is not part of this model.
- Cell styling: fonts, fills, column widths and `Position = 1`. Cell values are modelled as text; the workbook's number typing of count and value cells is not.
- The workbook library's rejection of a duplicate sheet name is not modelled. `ExcelExporter.SanitizeCollides` shows when two entities get the same name.
- Floating point: MinValue and MaxValue are `real`. Their text and the date's text come from the `Formats` parameter, and `decimal` to `double` rounding is not modelled.
- Culture: string order is a sort-key parameter. Ordinal-ignore-case comparison is modelled as an ASCII case fold. UTF-16 surrogate pairs are not distinguished from other characters.
- `HashSet` enumeration order: `SolutionComponents` is modelled as a set.
- An exception other than "Solution not found" is not modelled. A metadata lookup that throws is the lookup's `None`.
- Text.IntToString: the minus sign is '-'. `int.ToString()` at ExcelExporter.cs:193 and :270 uses the current culture's negative sign; other signs are not modelled.
- CsvExport.CsvLineRoundTrip: it is stated only for lines whose unescaped fields hold no quote, because the exporter writes those fields raw. `CsvExport.RawTargetQuoteBreaksLine` shows the proviso cannot be dropped.

=== FILE: csv_export.dfy ===
/** The flat CSV export of ExcelExporter.cs (`ExportToCsv`, `EscapeCsv`): one
    header line, then one line per attribute, entities and attributes in
    logical-name order. Every field is wrapped in double quotes; only the
    display name and the description have their quotes doubled. */
module CsvExport {
  import opened Wrappers
  import opened Text
  import opened Ordering
  import opened Models

  const CsvColumns: seq<string> :=
    ["Entity", "Attribute", "Display Name", "Type", "Description",
     "Required Level", "Is Custom", "Max Length", "Format", "Targets"]

  /** The header line, "Entity,Attribute,Display Name,...,Format,Targets". */
  const CsvHeader: string := Join(",", CsvColumns)

  // ---------------------------------------------------------------------
  // Quote escaping

  /** `s.Replace("\"", "\"\"")`. */
  function DoubleQuotes(s: string): (r: string)
    ensures |r| == |s| + Count(s, '"')
    decreases |s|
  {
    if |s| == 0 then ""
    else (if s[0] == '"' then "\"\"" else [s[0]]) + DoubleQuotes(s[1..])
  }

  /** `s.Replace("\"\"", "\"")`: pairs of quotes, left to right, become one. */
  function CollapseQuotes(s: string): string
    decreases |s|
  {
    if |s| == 0 then ""
    else if |s| >= 2 && s[0] == '"' && s[1] == '"' then "\"" + CollapseQuotes(s[2..])
    else [s[0]] + CollapseQuotes(s[1..])
  }

  lemma {:induction false} CollapseDoubled(s: string)
    ensures CollapseQuotes(DoubleQuotes(s)) == s
    decreases |s|
  {
    if |s| > 0 {
      var rest := DoubleQuotes(s[1..]);
      CollapseDoubled(s[1..]);
      if s[0] == '"' {
        assert DoubleQuotes(s) == "\"\"" + rest;
        assert ("\"\"" + rest)[2..] == rest;
      } else {
        assert DoubleQuotes(s) == [s[0]] + rest;
        assert ([s[0]] + rest)[1..] == rest;
      }
      assert s == [s[0]] + s[1..];
    }
  }

  lemma {:induction false} QuoteFreeUnchanged(s: string)
    requires QuoteFree(s)
    ensures DoubleQuotes(s) == s
    decreases |s|
  {
    if |s| > 0 {
      QuoteFreeUnchanged(s[1..]);
      assert s == [s[0]] + s[1..];
    }
  }

  /** `EscapeCsv`: empty input comes back unchanged; otherwise every quote is
      doubled, so the text grows by the number of quotes and un-doubling
      recovers it. */
  function EscapeCsv(value: string): (r: string)
    ensures |value| == 0 ==> r == value
    ensures |r| == |value| + Count(value, '"')
    ensures CollapseQuotes(r) == value
  {
    if |value| == 0 then value
    else
      CollapseDoubled(value);
      DoubleQuotes(value)
  }

  // ---------------------------------------------------------------------
  // Lines

  /** The ten values of an attribute's line, as a CSV reader should read
      them back: absent values are empty, flags are Yes/No, targets are
      joined with "; ". */
  function CsvValues(entity: EntitySchema, a: AttributeSchema): (v: seq<string>)
    ensures |v| == |CsvColumns|
  {
    [ entity.logicalName,
      a.logicalName,
      a.displayName.GetOr(""),
      a.attributeType.GetOr(""),
      a.description.GetOr(""),
      a.requiredLevel.GetOr(""),
      YesNo(a.isCustomAttribute),
      if a.maxLength.Some? then IntToString(a.maxLength.value) else "",
      a.format.GetOr(""),
      if a.targets.Some? then Join("; ", a.targets.value) else "" ]
  }

  /** Column indexes of the two values that are escaped. */
  const DisplayNameColumn := 2
  const DescriptionColumn := 4

  /** The text written between the quotes of each field. */
  function CsvCells(entity: EntitySchema, a: AttributeSchema): (c: seq<string>)
    ensures |c| == |CsvColumns|
    ensures c[DisplayNameColumn] == EscapeCsv(CsvValues(entity, a)[DisplayNameColumn])
    ensures c[DescriptionColumn] == EscapeCsv(CsvValues(entity, a)[DescriptionColumn])
    ensures forall i :: 0 <= i < |c| && i != DisplayNameColumn && i != DescriptionColumn ==>
      c[i] == CsvValues(entity, a)[i]
  {
    var v := CsvValues(entity, a);
    v[DisplayNameColumn := EscapeCsv(v[DisplayNameColumn])][DescriptionColumn := EscapeCsv(v[DescriptionColumn])]
  }

  /** `"c0","c1",...,"cn"`. */
  function QuotedLine(cells: seq<string>): (line: string)
    requires |cells| > 0
    ensures |line| > 0 && line[0] == '"'
    decreases |cells|
  {
    "\"" + cells[0] + "\"" + (if |cells| == 1 then "" else "," + QuotedLine(cells[1..]))
  }

  /** The line of one attribute. */
  function CsvLine(entity: EntitySchema, a: AttributeSchema): string {
    QuotedLine(CsvCells(entity, a))
  }

  function CsvLineOf(entity: EntitySchema): AttributeSchema -> string {
    (a: AttributeSchema) => CsvLine(entity, a)
  }

  /** The lines of the attributes `attrs` of `entity`, in the given order. */
  function AttributeLines(entity: EntitySchema, attrs: seq<AttributeSchema>): (lines: seq<string>)
    ensures |lines| == |attrs|
    ensures forall i :: 0 <= i < |attrs| ==> lines[i] == CsvLine(entity, attrs[i])
  {
    Map(attrs, CsvLineOf(entity))
  }

  /** The lines of one entity, its attributes in their stored order. */
  function EntityLines(entity: EntitySchema): seq<string> {
    AttributeLines(entity, entity.attributes)
  }

  /** One line per attribute of every entity, in the stored order and without
      re-sorting: the lines the export must write, up to their order. */
  function StoredOrderLines(entities: seq<EntitySchema>): seq<string> {
    FlatMap(entities, EntityLines)
  }

  /** `l` is the line of some attribute of some entity in `entities`. */
  ghost predicate LineOf(entities: seq<EntitySchema>, l: string) {
    exists e, a :: e in entities && a in e.attributes && l == CsvLine(e, a)
  }

  /** The data lines of the entities in the given order, each entity's
      attributes re-ordered by logical name. */
  function DataLines(entities: seq<EntitySchema>, key: string -> seq<int>): (lines: seq<string>)
    ensures |lines| == TotalAttributes(entities)
    ensures forall l :: l in lines ==> LineOf(entities, l)
    ensures multiset(lines) == multiset(StoredOrderLines(entities))
    decreases |entities|
  {
    if |entities| == 0 then []
    else
      var e := entities[0];
      var attrs := SortBy(e.attributes, AttributeRank(key));
      var first := AttributeLines(e, attrs);
      var rest := DataLines(entities[1..], key);
      MapPermutation(attrs, e.attributes, CsvLineOf(e));
      SortedLinesBelong(entities, key);
      LaterLinesBelong(entities, rest);
      first + rest
  }

  /** The lines of the first entity, its attributes sorted, are lines of the
      entities. */
  lemma SortedLinesBelong(entities: seq<EntitySchema>, key: string -> seq<int>)
    requires |entities| > 0
    ensures forall l :: l in AttributeLines(entities[0], SortBy(entities[0].attributes, AttributeRank(key))) ==>
      LineOf(entities, l)
  {
    var e := entities[0];
    var attrs := SortBy(e.attributes, AttributeRank(key));
    var first := AttributeLines(e, attrs);
    SortMembers(e.attributes, AttributeRank(key));
    forall l | l in first ensures LineOf(entities, l) {
      var i :| 0 <= i < |first| && first[i] == l;
      assert attrs[i] in e.attributes;
    }
  }

  /** Lines of the later entities are lines of the entities. */
  lemma LaterLinesBelong(entities: seq<EntitySchema>, rest: seq<string>)
    requires |entities| > 0
    requires forall l :: l in rest ==> LineOf(entities[1..], l)
    ensures forall l :: l in rest ==> LineOf(entities, l)
  {
    forall l | l in rest ensures LineOf(entities, l) {
      var e', a :| e' in entities[1..] && a in e'.attributes && l == CsvLine(e', a);
      assert e' in entities;
    }
  }

  /** Lines that reorder the stored-order lines hold the line of every
      attribute of every entity. */
  lemma CsvCoversEveryAttribute(entities: seq<EntitySchema>, lines: seq<string>)
    requires multiset(lines) == multiset(StoredOrderLines(entities))
    ensures forall e, a :: e in entities && a in e.attributes ==> CsvLine(e, a) in lines
  {
    forall e, a | e in entities && a in e.attributes
      ensures CsvLine(e, a) in lines
    {
      var i :| 0 <= i < |e.attributes| && e.attributes[i] == a;
      var l := CsvLine(e, a);
      assert l == EntityLines(e)[i];
      FlatMapContains(entities, EntityLines, e, l);
      assert l in multiset(StoredOrderLines(entities));
    }
  }

  /** `ExportToCsv`: the header, then exactly one line per attribute: the data
      lines are a reordering of the stored-order lines. */
  function ExportToCsv(schema: PowerAppsSchema, key: string -> seq<int>): (lines: seq<string>)
    ensures |lines| == 1 + TotalAttributes(schema.entities)
    ensures lines[0] == CsvHeader
    ensures forall l :: l in lines[1..] ==> LineOf(schema.entities, l)
    ensures multiset(lines[1..]) == multiset(StoredOrderLines(schema.entities))
    ensures forall e, a :: e in schema.entities && a in e.attributes ==> CsvLine(e, a) in lines[1..]
  {
    var sorted := SortBy(schema.entities, EntityRank(key));
    SumPermutation(sorted, schema.entities, AttributeCountOf());
    SortMembers(schema.entities, EntityRank(key));
    var data := DataLines(sorted, key);
    forall l | l in data ensures LineOf(schema.entities, l) {
      var e, a :| e in sorted && a in e.attributes && l == CsvLine(e, a);
    }
    FlatMapPermutation(sorted, schema.entities, EntityLines);
    CsvCoversEveryAttribute(schema.entities, data);
    assert ([CsvHeader] + data)[1..] == data;
    [CsvHeader] + data
  }

  // ---------------------------------------------------------------------
  // Reading a line back

  /** Reads the rest of a quoted field (after its opening quote): `""` stands
      for one quote, a lone `"` closes the field. Returns the value and what
      follows the closing quote. */
  function ReadQuoted(s: string): (r: Option<(string, string)>)
    ensures r.Some? ==> |r.value.1| < |s|
    decreases |s|
  {
    if |s| == 0 then None
    else if s[0] == '"' then
      if |s| >= 2 && s[1] == '"' then
        match ReadQuoted(s[2..])
        case None => None
        case Some((v, rest)) => Some(("\"" + v, rest))
      else Some(("", s[1..]))
    else
      match ReadQuoted(s[1..])
      case None => None
      case Some((v, rest)) => Some(([s[0]] + v, rest))
  }

  /** Reads a line of comma-separated quoted fields. */
  function ParseQuotedLine(s: string): Option<seq<string>>
    decreases |s|
  {
    if |s| == 0 || s[0] != '"' then None
    else
      match ReadQuoted(s[1..])
      case None => None
      case Some((v, rest)) =>
        if |rest| == 0 then Some([v])
        else if rest[0] != ',' then None
        else
          match ParseQuotedLine(rest[1..])
          case None => None
          case Some(vs) => Some([v] + vs)
  }

  lemma {:induction false} ReadDoubled(v: string, rest: string)
    requires |rest| == 0 || rest[0] != '"'
    ensures ReadQuoted(DoubleQuotes(v) + "\"" + rest) == Some((v, rest))
    decreases |v|
  {
    var s := DoubleQuotes(v) + "\"" + rest;
    if |v| == 0 {
      assert s == "\"" + rest;
      assert s[1..] == rest;
    } else {
      ReadDoubled(v[1..], rest);
      var tail := DoubleQuotes(v[1..]) + "\"" + rest;
      if v[0] == '"' {
        assert s == "\"\"" + tail;
        assert s[2..] == tail;
      } else {
        assert s == [v[0]] + tail;
        assert s[1..] == tail;
      }
      assert v == [v[0]] + v[1..];
    }
  }

  /** Reading one written field and the separator after it. */
  lemma ParseFirstField(v: string, more: string)
    requires |more| == 0 || more[0] == ','
    ensures ParseQuotedLine("\"" + DoubleQuotes(v) + "\"" + more)
         == if |more| == 0 then Some([v])
            else match ParseQuotedLine(more[1..])
                 case None => None
                 case Some(vs) => Some([v] + vs)
  {
    var line := "\"" + DoubleQuotes(v) + "\"" + more;
    assert line[1..] == DoubleQuotes(v) + "\"" + more;
    ReadDoubled(v, more);
    ParseAfterField(line, v, more);
  }

  /** One step of the line reader: a field, then the end or a separator. */
  lemma ParseAfterField(line: string, v: string, more: string)
    requires |line| > 0 && line[0] == '"' && ReadQuoted(line[1..]) == Some((v, more))
    requires |more| == 0 || more[0] == ','
    ensures ParseQuotedLine(line)
         == if |more| == 0 then Some([v])
            else match ParseQuotedLine(more[1..])
                 case None => None
                 case Some(vs) => Some([v] + vs)
  {
  }

  lemma {:induction false} ParseQuoted(cells: seq<string>, values: seq<string>)
    requires |cells| == |values| > 0
    requires forall i :: 0 <= i < |cells| ==> cells[i] == DoubleQuotes(values[i])
    ensures ParseQuotedLine(QuotedLine(cells)) == Some(values)
    decreases |cells|
  {
    var more := if |cells| == 1 then "" else "," + QuotedLine(cells[1..]);
    ParseFirstField(values[0], more);
    if |cells| == 1 {
      assert values == [values[0]];
    } else {
      assert more[1..] == QuotedLine(cells[1..]);
      ParseQuoted(cells[1..], values[1..]);
      assert values == [values[0]] + values[1..];
    }
  }

  /** A CSV reader recovers the ten values of every line, provided the fields
      written without escaping hold no quote (logical names, type labels and
      formats never do). */
  lemma CsvLineRoundTrip(entity: EntitySchema, a: AttributeSchema)
    requires QuoteFree(entity.logicalName) && QuoteFree(a.logicalName)
    requires QuoteFree(a.attributeType.GetOr("")) && QuoteFree(a.requiredLevel.GetOr(""))
    requires QuoteFree(a.format.GetOr(""))
    requires a.targets.Some? ==> QuoteFree(Join("; ", a.targets.value))
    ensures ParseQuotedLine(CsvLine(entity, a)) == Some(CsvValues(entity, a))
  {
    var v := CsvValues(entity, a);
    var c := CsvCells(entity, a);
    forall i | 0 <= i < |c| ensures c[i] == DoubleQuotes(v[i]) {
      if i == DisplayNameColumn || i == DescriptionColumn {
      } else {
        assert QuoteFree(v[i]);
        QuoteFreeUnchanged(v[i]);
      }
    }
    ParseQuoted(c, v);
  }

  /** A line whose last field was written holding a lone quote cannot be read:
      the quote is taken for the first half of a doubled quote and the field
      never closes. */
  lemma {:induction false} UnescapedQuoteLast(cells: seq<string>)
    requires |cells| > 0 && cells[|cells| - 1] == "\""
    requires forall i :: 0 <= i < |cells| - 1 ==> QuoteFree(cells[i])
    ensures ParseQuotedLine(QuotedLine(cells)) == None
    decreases |cells|
  {
    if |cells| == 1 {
      assert QuotedLine(cells) == "\"\"\"";
      assert "\"\""[2..] == "";
    } else {
      var more := "," + QuotedLine(cells[1..]);
      QuoteFreeUnchanged(cells[0]);
      ParseFirstField(cells[0], more);
      assert more[1..] == QuotedLine(cells[1..]);
      UnescapedQuoteLast(cells[1..]);
    }
  }

  /** The proviso of `CsvLineRoundTrip` is needed: lookup targets are written
      without escaping, so a target named `"` makes the line unreadable even
      when every other value is free of quotes. */
  lemma RawTargetQuoteBreaksLine(entity: EntitySchema, a: AttributeSchema)
    requires forall i :: 0 <= i < |CsvColumns| - 1 ==> QuoteFree(CsvValues(entity, a)[i])
    requires a.targets == Some(["\""])
    ensures ParseQuotedLine(CsvLine(entity, a)) == None
    ensures ParseQuotedLine(CsvLine(entity, a)) != Some(CsvValues(entity, a))
  {
    var v := CsvValues(entity, a);
    var c := CsvCells(entity, a);
    forall i | 0 <= i < |c| - 1 ensures QuoteFree(c[i]) {
      if (i == DisplayNameColumn || i == DescriptionColumn) && |v[i]| > 0 {
        QuoteFreeUnchanged(v[i]);
      }
    }
    assert c[|c| - 1] == Join("; ", ["\""]) == "\"";
    UnescapedQuoteLast(c);
  }

  // ---------------------------------------------------------------------
  // Lines of an extracted schema

  /** When entities and attributes are already in logical-name order (as the
      extractor leaves them), the export's re-sorting changes nothing. */
  lemma {:induction false} SortedSchemaLines(entities: seq<EntitySchema>, key: string -> seq<int>)
    requires forall e :: e in entities ==> SortedBy(e.attributes, AttributeRank(key))
    ensures DataLines(entities, key) == StoredOrderLines(entities)
    decreases |entities|
  {
    if |entities| > 0 {
      SortSorted(entities[0].attributes, AttributeRank(key));
      assert forall e :: e in entities[1..] ==> e in entities;
      SortedSchemaLines(entities[1..], key);
    }
  }

  lemma CsvFollowsStoredOrder(schema: PowerAppsSchema, key: string -> seq<int>)
    requires SortedBy(schema.entities, EntityRank(key))
    requires forall e :: e in schema.entities ==> SortedBy(e.attributes, AttributeRank(key))
    ensures ExportToCsv(schema, key) == [CsvHeader] + StoredOrderLines(schema.entities)
  {
    SortSorted(schema.entities, EntityRank(key));
    SortedSchemaLines(schema.entities, key);
  }

  /** A line reads only the logical name of its entity. */
  lemma AttributeLinesOfSameName(e1: EntitySchema, e2: EntitySchema, attrs: seq<AttributeSchema>)
    requires e1.logicalName == e2.logicalName
    ensures AttributeLines(e1, attrs) == AttributeLines(e2, attrs)
  {
    forall i | 0 <= i < |attrs| ensures CsvLine(e1, attrs[i]) == CsvLine(e2, attrs[i]) {
      assert CsvValues(e1, attrs[i]) == CsvValues(e2, attrs[i]);
    }
  }

  lemma {:induction false} DataLinesSortAttributes(entities: seq<EntitySchema>, key: string -> seq<int>)
    ensures DataLines(entities, key) == StoredOrderLines(Map(entities, SortAttributes(key)))
    decreases |entities|
  {
    if |entities| > 0 {
      var e := entities[0];
      var m := Map(entities, SortAttributes(key));
      assert m[1..] == Map(entities[1..], SortAttributes(key));
      AttributeLinesOfSameName(m[0], e, m[0].attributes);
      DataLinesSortAttributes(entities[1..], key);
    }
  }

  /** Whatever order the schema holds its entities and attributes in, the
      export writes the stored-order lines of the schema put in logical-name
      order: entities by logical name, and within each entity its attributes
      by logical name. */
  lemma CsvInKeyOrder(schema: PowerAppsSchema, key: string -> seq<int>)
    ensures ExportToCsv(schema, key) == [CsvHeader] + StoredOrderLines(InKeyOrder(schema.entities, key))
  {
    DataLinesSortAttributes(SortBy(schema.entities, EntityRank(key)), key);
  }
}

=== FILE: excel_export.dfy ===
/** The workbook export of ExcelExporter.cs, abstracted to an ordered list
    of sheets, each a name and rows of cell texts (row k of the list is
    spreadsheet row k+1; an unset cell is ""). Fonts, fills and column widths
    are not modelled. */
module ExcelExporter {
  import opened Wrappers
  import opened Text
  import opened Ordering
  import opened Models
  import CsvExport

  datatype Sheet = Sheet(name: string, rows: seq<seq<string>>)

  /** Cell (row, column), counted from 0, exists and holds `text`. */
  predicate CellIs(rows: seq<seq<string>>, row: nat, column: nat, text: string) {
    row < |rows| && column < |rows[row]| && rows[row][column] == text
  }

  /** Cell (row, column), counted from 0, exists and shows the integer `n`. */
  predicate CellShows(rows: seq<seq<string>>, row: nat, column: nat, n: int) {
    row < |rows| && column < |rows[row]| && ReadsAs(rows[row][column], n)
  }

  /** The .NET formatting the exporter relies on: the extraction date as
      "yyyy-MM-dd HH:mm:ss" and `double.ToString()` of the numeric bounds. */
  datatype Formats = Formats(date: Instant -> string, number: real -> string)

  // ---------------------------------------------------------------------
  // Sheet names

  const MaxSheetNameLength: nat := 31
  const ForbiddenSheetChars: seq<char> := [':', '/', '\\', '?', '*', '[', ']']

  /** The entity sheet name: the logical name cut to 31 characters, then
      each of `: / \ ? * [ ]` replaced by `_`. */
  function SanitizeSheetName(name: string): (r: string)
    ensures |r| == (if |name| > MaxSheetNameLength then MaxSheetNameLength else |name|)
    ensures forall i :: 0 <= i < |r| ==> r[i] !in ForbiddenSheetChars
    ensures forall i :: 0 <= i < |r| ==> r[i] == (if name[i] in ForbiddenSheetChars then '_' else name[i])
  {
    var cut := if |name| > MaxSheetNameLength then name[..MaxSheetNameLength] else name;
    var r := ReplaceChar(ReplaceChar(ReplaceChar(ReplaceChar(ReplaceChar(ReplaceChar(ReplaceChar(
               cut, ':', '_'), '/', '_'), '\\', '_'), '?', '_'), '*', '_'), '[', '_'), ']', '_');
    r
  }

  /** At most 31 characters, none of `: / \ ? * [ ]`. */
  predicate ValidSheetName(name: string) {
    |name| <= MaxSheetNameLength && forall k :: 0 <= k < |name| ==> name[k] !in ForbiddenSheetChars
  }

  lemma SanitizedNameValid(name: string)
    ensures ValidSheetName(SanitizeSheetName(name))
  {
  }

  /** A name that is already short enough and clean is kept as is. */
  lemma ValidSheetNameUnchanged(name: string)
    requires ValidSheetName(name)
    ensures SanitizeSheetName(name) == name
  {
  }

  lemma SanitizeIdempotent(name: string)
    ensures SanitizeSheetName(SanitizeSheetName(name)) == SanitizeSheetName(name)
  {
    ValidSheetNameUnchanged(SanitizeSheetName(name));
  }

  /** Sanitising is not one-to-one: logical names that agree on their first
      31 characters, or that differ only in which forbidden character they
      hold, get the same sheet name. */
  lemma SanitizeCollides(a: string, b: string)
    requires |a| == |b| || (|a| >= MaxSheetNameLength && |b| >= MaxSheetNameLength)
    requires forall i :: 0 <= i < |a| && i < |b| && i < MaxSheetNameLength ==>
      a[i] == b[i] || (a[i] in ForbiddenSheetChars && b[i] in ForbiddenSheetChars)
    ensures SanitizeSheetName(a) == SanitizeSheetName(b)
  {
    var ra, rb := SanitizeSheetName(a), SanitizeSheetName(b);
    assert |ra| == |rb|;
    forall i | 0 <= i < |ra| ensures ra[i] == rb[i] {
    }
  }

  // ---------------------------------------------------------------------
  // Summary sheet

  const SummarySheetName := "Summary"
  const DefaultTitle := "PowerApps Schema Export"
  const AllMetadata := "(All metadata)"
  /** Rows above the first entity row of the summary sheet. */
  const SummaryHeaderRows: nat := 14
  const TotalEntitiesRow: nat := 8
  const TotalAttributesRow: nat := 9
  const TotalRelationshipsRow: nat := 10

  function EntitySummaryRow(e: EntitySchema): (row: seq<string>)
    ensures |row| == 5 && row[0] == e.logicalName
    ensures row[1] == e.displayName.GetOr("")
    ensures ReadsAs(row[2], |e.attributes|)
    ensures row[3] == YesNo(e.isCustomEntity) && row[4] == YesNo(e.isActivity)
  {
    IntToStringRoundTrip(|e.attributes|);
    [e.logicalName, e.displayName.GetOr(""), IntToString(|e.attributes|), YesNo(e.isCustomEntity), YesNo(e.isActivity)]
  }

  /** The title, metadata and statistics block above the entity list. */
  function SummaryHead(schema: PowerAppsSchema, fmt: Formats): (rows: seq<seq<string>>)
    ensures |rows| == SummaryHeaderRows
    ensures IsBlank(schema.solutionName) ==> CellIs(rows, 0, 0, DefaultTitle)
    ensures !IsBlank(schema.solutionName) ==> CellIs(rows, 0, 0, schema.solutionName.value)
    ensures schema.solutionName.None? ==> CellIs(rows, 4, 1, AllMetadata)
    ensures schema.solutionName.Some? ==> CellIs(rows, 4, 1, schema.solutionName.value)
    ensures CellShows(rows, TotalEntitiesRow, 1, |schema.entities|)
    ensures CellShows(rows, TotalAttributesRow, 1, TotalAttributes(schema.entities))
    ensures CellShows(rows, TotalRelationshipsRow, 1, |schema.relationships|)
  {
    var title := if !IsBlank(schema.solutionName) then schema.solutionName.value else DefaultTitle;
    var total := TotalAttributes(schema.entities);
    IntToStringRoundTrip(|schema.entities|);
    IntToStringRoundTrip(total);
    IntToStringRoundTrip(|schema.relationships|);
    [ [title],
      [],
      ["Environment:", schema.environmentUrl],
      ["Organization:", schema.organizationName],
      ["Solution:", schema.solutionName.GetOr(AllMetadata)],
      ["Extracted:", fmt.date(schema.extractedDate)],
      [],
      ["Statistics:"],
      ["Total Entities:", IntToString(|schema.entities|)],
      ["Total Attributes:", IntToString(total)],
      ["Total Relationships:", IntToString(|schema.relationships|)],
      [],
      ["Entities"],
      ["Logical Name", "Display Name", "Attributes", "Is Custom", "Is Activity"] ]
  }

  /** Rows built one per element of a sorted sequence, with the element's
      sort text in column 0, are in key order. */
  lemma RowsInKeyOrder<T>(sorted: seq<T>, rows: seq<seq<string>>, rank: T -> seq<int>, key: string -> seq<int>)
    requires |rows| == |sorted| && SortedBy(sorted, rank)
    requires forall i :: 0 <= i < |rows| ==> 0 < |rows[i]| && key(rows[i][0]) == rank(sorted[i])
    ensures forall i, j :: 0 <= i < j < |rows| ==> KeyLe(key(rows[i][0]), key(rows[j][0]))
  {
    forall i, j | 0 <= i < j < |rows|
      ensures KeyLe(key(rows[i][0]), key(rows[j][0]))
    {
      assert KeyLe(rank(sorted[i]), rank(sorted[j]));
    }
  }

  /** The entity list of the summary: one row per entity, in logical-name
      order. */
  function EntitySummaryRows(entities: seq<EntitySchema>, key: string -> seq<int>): (rows: seq<seq<string>>)
    ensures |rows| == |entities|
    ensures forall i :: 0 <= i < |rows| ==> |rows[i]| == 5
    ensures forall row :: row in rows ==> exists e :: e in entities && row == EntitySummaryRow(e)
    ensures forall e :: e in entities ==> EntitySummaryRow(e) in rows
    ensures multiset(rows) == multiset(Map(entities, EntitySummaryRow))
    ensures forall i, j :: 0 <= i < j < |rows| ==> KeyLe(key(rows[i][0]), key(rows[j][0]))
  {
    var sorted := SortBy(entities, EntityRank(key));
    var rows := Map(sorted, EntitySummaryRow);
    RowsInKeyOrder(sorted, rows, EntityRank(key), key);
    MapReorder(sorted, entities, EntitySummaryRow);
    rows
  }

  /** `CreateSummarySheet`: the head block, then the entity list. */
  function SummarySheet(schema: PowerAppsSchema, key: string -> seq<int>, fmt: Formats): (s: Sheet)
    ensures s.name == SummarySheetName
    ensures |s.rows| == SummaryHeaderRows + |schema.entities|
    ensures s.rows == SummaryHead(schema, fmt) + EntitySummaryRows(schema.entities, key)
  {
    Sheet(SummarySheetName, SummaryHead(schema, fmt) + EntitySummaryRows(schema.entities, key))
  }

  // ---------------------------------------------------------------------
  // Entity sheets

  const AttributeColumns: seq<string> :=
    ["Logical Name", "Display Name", "Type", "Description", "Required", "Is Custom",
     "Max Length", "Format", "Min Value", "Max Value", "Targets"]

  /** Rows above the first attribute row of an entity sheet. */
  const EntityHeaderRows: nat := 13

  /** The entity information block and the attribute table header. */
  function EntityInfoRows(e: EntitySchema): (rows: seq<seq<string>>)
    ensures |rows| == EntityHeaderRows
    ensures CellIs(rows, 1, 1, e.logicalName) && CellIs(rows, 3, 1, e.schemaName)
    ensures CellIs(rows, 2, 1, e.displayName.GetOr(""))
    ensures CellIs(rows, 4, 1, YesNo(e.isCustomEntity)) && CellIs(rows, 5, 1, YesNo(e.isActivity))
    ensures CellIs(rows, 6, 1, e.primaryIdAttribute.GetOr("")) && CellIs(rows, 7, 1, e.primaryNameAttribute.GetOr(""))
    ensures CellIs(rows, 8, 1, e.ownershipType.GetOr("")) && CellIs(rows, 9, 1, e.description.GetOr(""))
    ensures rows[EntityHeaderRows - 1] == AttributeColumns
  {
    [ ["Entity Information"],
      ["Logical Name:", e.logicalName],
      ["Display Name:", e.displayName.GetOr("")],
      ["Schema Name:", e.schemaName],
      ["Is Custom Entity:", YesNo(e.isCustomEntity)],
      ["Is Activity:", YesNo(e.isActivity)],
      ["Primary ID:", e.primaryIdAttribute.GetOr("")],
      ["Primary Name:", e.primaryNameAttribute.GetOr("")],
      ["Ownership Type:", e.ownershipType.GetOr("")],
      ["Description:", e.description.GetOr("")],
      [],
      ["Attributes"],
      AttributeColumns ]
  }

  /** An optional integer as a cell: empty when absent. */
  function IntCell(n: Option<int>): (c: string)
    ensures c == "" <==> n.None?
    ensures n.Some? ==> ReadsAs(c, n.value)
  {
    if n.Some? then IntToStringRoundTrip(n.value); IntToString(n.value) else ""
  }

  /** The eleven cells of an attribute row, one per column of `AttributeColumns`. */
  function AttributeCells(name: string, display: string, typ: string, description: string, required: string,
                          custom: string, maxLength: string, format: string, min: string, max: string,
                          targets: string): (row: seq<string>)
    ensures |row| == |AttributeColumns|
    ensures row[0] == name && row[1] == display && row[2] == typ && row[3] == description
    ensures row[4] == required && row[5] == custom && row[6] == maxLength && row[7] == format
    ensures row[8] == min && row[9] == max && row[10] == targets
  {
    [name, display, typ, description, required, custom, maxLength, format, min, max, targets]
  }

  /** One attribute row: flags as Yes/No, absent values as empty cells, lookup
      targets joined with ", ". */
  function AttributeRow(a: AttributeSchema, fmt: Formats): (row: seq<string>)
    ensures |row| == |AttributeColumns|
    ensures row[0] == a.logicalName
    ensures row[1] == a.displayName.GetOr("")
    ensures row[2] == a.attributeType.GetOr("")
    ensures row[3] == a.description.GetOr("")
    ensures row[4] == a.requiredLevel.GetOr("")
    ensures row[5] == YesNo(a.isCustomAttribute)
    ensures row[6] == "" <==> a.maxLength.None?
    ensures a.maxLength.Some? ==> ReadsAs(row[6], a.maxLength.value)
    ensures row[7] == a.format.GetOr("")
    ensures row[8] == (if a.minValue.Some? then fmt.number(a.minValue.value) else "")
    ensures row[9] == (if a.maxValue.Some? then fmt.number(a.maxValue.value) else "")
    ensures a.targets.None? ==> row[10] == ""
    ensures a.targets.Some? ==> row[10] == Join(", ", a.targets.value)
  {
    AttributeCells(a.logicalName,
                   a.displayName.GetOr(""),
                   a.attributeType.GetOr(""),
                   a.description.GetOr(""),
                   a.requiredLevel.GetOr(""),
                   YesNo(a.isCustomAttribute),
                   IntCell(a.maxLength),
                   a.format.GetOr(""),
                   if a.minValue.Some? then fmt.number(a.minValue.value) else "",
                   if a.maxValue.Some? then fmt.number(a.maxValue.value) else "",
                   if a.targets.Some? then Join(", ", a.targets.value) else "")
  }

  function AttributeRowOf(fmt: Formats): AttributeSchema -> seq<string> {
    (a: AttributeSchema) => AttributeRow(a, fmt)
  }

  /** The attribute table of an entity sheet: one row per attribute, in
      logical-name order. */
  function AttributeRows(attrs: seq<AttributeSchema>, key: string -> seq<int>, fmt: Formats): (rows: seq<seq<string>>)
    ensures |rows| == |attrs|
    ensures forall i :: 0 <= i < |rows| ==> |rows[i]| == |AttributeColumns|
    ensures forall row :: row in rows ==> exists a :: a in attrs && row == AttributeRow(a, fmt)
    ensures forall a :: a in attrs ==> AttributeRow(a, fmt) in rows
    ensures multiset(rows) == multiset(Map(attrs, AttributeRowOf(fmt)))
    ensures forall i, j :: 0 <= i < j < |rows| ==> KeyLe(key(rows[i][0]), key(rows[j][0]))
  {
    var sorted := SortBy(attrs, AttributeRank(key));
    var rows := Map(sorted, AttributeRowOf(fmt));
    RowsInKeyOrder(sorted, rows, AttributeRank(key), key);
    MapReorder(sorted, attrs, AttributeRowOf(fmt));
    rows
  }

  /** `CreateEntitySheet`: the information block, then the attribute table. */
  function EntitySheet(e: EntitySchema, key: string -> seq<int>, fmt: Formats): (s: Sheet)
    ensures s.name == SanitizeSheetName(e.logicalName)
    ensures |s.rows| == EntityHeaderRows + |e.attributes|
    ensures CellIs(s.rows, 1, 1, e.logicalName)
    ensures s.rows[..EntityHeaderRows] == EntityInfoRows(e)
    ensures s.rows[EntityHeaderRows..] == AttributeRows(e.attributes, key, fmt)
  {
    var info, table := EntityInfoRows(e), AttributeRows(e.attributes, key, fmt);
    assert (info + table)[..EntityHeaderRows] == info;
    assert (info + table)[EntityHeaderRows..] == table;
    Sheet(SanitizeSheetName(e.logicalName), info + table)
  }

  // ---------------------------------------------------------------------
  // Option Sets sheet

  const OptionSetsSheetName := "Option Sets"
  const OptionSetColumns: seq<string> := ["Entity", "Attribute", "Option Set Name", "Is Global", "Value", "Label"]
  const ValueColumn: nat := 4

  /** The options of an attribute's option set (none without one). */
  function OptionCount(a: AttributeSchema): nat {
    if a.optionSet.Some? then |a.optionSet.value.options| else 0
  }

  function OptionCountOf(): AttributeSchema -> nat {
    (a: AttributeSchema) => OptionCount(a)
  }

  function EntityOptionCountOf(): EntitySchema -> nat {
    (e: EntitySchema) => Sum(e.attributes, OptionCountOf())
  }

  /** The number of options over every attribute of every entity. */
  function TotalOptions(entities: seq<EntitySchema>): nat {
    Sum(entities, EntityOptionCountOf())
  }

  /** The value cells of rows `i < j` read as ascending integers. */
  predicate ValuesAscending(rows: seq<seq<string>>) {
    forall i, j :: 0 <= i < j < |rows| ==>
      && ValueColumn < |rows[i]| && ValueColumn < |rows[j]|
      && IsIntText(rows[i][ValueColumn]) && IsIntText(rows[j][ValueColumn])
      && ParseInt(rows[i][ValueColumn]) <= ParseInt(rows[j][ValueColumn])
  }

  /** The value and label cells of `row` show option `o`. */
  predicate RowShowsOption(row: seq<string>, o: OptionSchema) {
    5 < |row| && ReadsAs(row[ValueColumn], o.value) && row[5] == o.labelText.GetOr("")
  }

  /** Every row names the entity and the attribute; the option set's name and
      Yes/No global flag appear on the first row only. */
  predicate OptionSetLayout(rows: seq<seq<string>>, entityName: string, a: AttributeSchema)
    requires a.optionSet.Some?
  {
    && (forall i :: 0 <= i < |rows| ==> |rows[i]| == |OptionSetColumns|)
    && (forall i :: 0 <= i < |rows| ==> rows[i][0] == entityName && rows[i][1] == a.logicalName)
    && (|rows| > 0 ==>
          rows[0][2] == a.optionSet.value.name.GetOr("") && rows[0][3] == YesNo(a.optionSet.value.isGlobal))
    && (forall i :: 1 <= i < |rows| ==> rows[i][2] == "" && rows[i][3] == "")
  }

  function OptionRow(entityName: string, a: AttributeSchema, o: OptionSchema, first: bool): (row: seq<string>)
    requires a.optionSet.Some?
  {
    var os := a.optionSet.value;
    [ entityName,
      a.logicalName,
      if first then os.name.GetOr("") else "",
      if first then YesNo(os.isGlobal) else "",
      IntToString(o.value),
      o.labelText.GetOr("") ]
  }

  /** The rows of the options `opts`, in the given order. */
  function OptionRowsFrom(entityName: string, a: AttributeSchema, opts: seq<OptionSchema>): (rows: seq<seq<string>>)
    requires a.optionSet.Some?
    ensures |rows| == |opts|
    ensures OptionSetLayout(rows, entityName, a)
    ensures forall i :: 0 <= i < |rows| ==> RowShowsOption(rows[i], opts[i])
  {
    var rows := seq(|opts|, i requires 0 <= i < |opts| => OptionRow(entityName, a, opts[i], i == 0));
    forall i | 0 <= i < |rows| ensures RowShowsOption(rows[i], opts[i]) {
      IntToStringRoundTrip(opts[i].value);
    }
    rows
  }

  /** Rows whose value cells read as the values of options sorted by value
      have ascending value cells. */
  lemma AscendingFromSorted(rows: seq<seq<string>>, opts: seq<OptionSchema>)
    requires |rows| == |opts|
    requires forall i :: 0 <= i < |rows| ==> RowShowsOption(rows[i], opts[i])
    requires SortedBy(opts, OptionRank())
    ensures ValuesAscending(rows)
  {
    forall i, j | 0 <= i < j < |rows|
      ensures ParseInt(rows[i][ValueColumn]) <= ParseInt(rows[j][ValueColumn])
    {
      assert KeyLe(OptionRank()(opts[i]), OptionRank()(opts[j]));
      SingletonKeyLe(opts[i].value, opts[j].value);
    }
  }

  /** The options of an attribute's option set, ascending by value (a stable
      `OrderBy(o => o.Value)`). */
  function OptionsByValue(a: AttributeSchema): (r: seq<OptionSchema>)
    requires a.optionSet.Some?
    ensures multiset(r) == multiset(a.optionSet.value.options)
    ensures SortedBy(r, OptionRank())
  {
    SortBy(a.optionSet.value.options, OptionRank())
  }

  /** The rows of one option set: one per option, row `i` showing the `i`-th
      option by value, so the value cells ascend; the set's name and Yes/No
      global flag only on the first row. */
  function OptionRows(entityName: string, a: AttributeSchema): (rows: seq<seq<string>>)
    requires a.optionSet.Some?
    ensures |rows| == |a.optionSet.value.options|
    ensures OptionSetLayout(rows, entityName, a)
    ensures ValuesAscending(rows)
    ensures forall i :: 0 <= i < |rows| ==> RowShowsOption(rows[i], OptionsByValue(a)[i])
  {
    var sorted := OptionsByValue(a);
    var rows := OptionRowsFrom(entityName, a, sorted);
    AscendingFromSorted(rows, sorted);
    rows
  }

  /** The attributes that have an option set (`Where(a => a.OptionSet != null)`). */
  function WithOptionSet(attrs: seq<AttributeSchema>): (r: seq<AttributeSchema>)
    ensures forall a :: a in r <==> a in attrs && a.optionSet.Some?
    ensures Sum(r, OptionCountOf()) == Sum(attrs, OptionCountOf())
    decreases |attrs|
  {
    if |attrs| == 0 then []
    else
      var rest := WithOptionSet(attrs[1..]);
      assert forall a :: a in attrs <==> a == attrs[0] || a in attrs[1..];
      if attrs[0].optionSet.Some? then
        assert ([attrs[0]] + rest)[1..] == rest;
        [attrs[0]] + rest
      else rest
  }

  /** A row's sort key: the key of its text in `column` (every row built here
      has that column). */
  function CellKey(key: string -> seq<int>, column: nat): seq<string> -> seq<int> {
    (row: seq<string>) => if column < |row| then key(row[column]) else []
  }

  /** `row` is a row of attribute `a` of entity `entityName`, showing option
      `o` of `a`'s option set. */
  predicate RowOfOption(row: seq<string>, entityName: string, a: AttributeSchema, o: OptionSchema) {
    && a.optionSet.Some? && o in a.optionSet.value.options
    && |row| == |OptionSetColumns| && row[0] == entityName && row[1] == a.logicalName
    && RowShowsOption(row, o)
  }

  /** Some row of `rows` shows option `o` of attribute `a` of entity `entityName`. */
  ghost predicate OptionListed(rows: seq<seq<string>>, entityName: string, a: AttributeSchema, o: OptionSchema) {
    exists row :: row in rows && RowOfOption(row, entityName, a, o)
  }

  /** `row` shows one of the options of attribute `a` of entity `entityName`. */
  ghost predicate ShowsOptionOf(row: seq<string>, entityName: string, a: AttributeSchema) {
    exists o :: RowOfOption(row, entityName, a, o)
  }

  /** `row` shows an option of one of the attributes `attrs` of entity `entityName`. */
  ghost predicate RowOfSomeOption(row: seq<string>, entityName: string, attrs: seq<AttributeSchema>) {
    exists a :: a in attrs && ShowsOptionOf(row, entityName, a)
  }

  /** The rows of one option set show its options and nothing else: each row
      shows one of them, and each of them is shown by a row. */
  lemma OptionRowsCorrespond(entityName: string, a: AttributeSchema)
    requires a.optionSet.Some?
    ensures forall row {:trigger ShowsOptionOf(row, entityName, a)} ::
      row in OptionRows(entityName, a) ==> ShowsOptionOf(row, entityName, a)
    ensures forall o {:trigger OptionListed(OptionRows(entityName, a), entityName, a, o)} ::
      o in a.optionSet.value.options ==> OptionListed(OptionRows(entityName, a), entityName, a, o)
  {
    var rows, sorted := OptionRows(entityName, a), OptionsByValue(a);
    forall row | row in rows ensures ShowsOptionOf(row, entityName, a) {
      var i :| 0 <= i < |rows| && rows[i] == row;
      assert sorted[i] in multiset(a.optionSet.value.options);
      assert RowOfOption(row, entityName, a, sorted[i]);
    }
    forall o | o in a.optionSet.value.options ensures OptionListed(rows, entityName, a, o) {
      assert o in multiset(sorted);
      var i :| 0 <= i < |sorted| && sorted[i] == o;
      assert RowOfOption(rows[i], entityName, a, o);
    }
  }

  /** An attribute's option rows; none without an option set. */
  function OptionRowsOf(entityName: string): AttributeSchema -> seq<seq<string>> {
    (a: AttributeSchema) => if a.optionSet.Some? then OptionRows(entityName, a) else []
  }

  /** The option rows of the given attributes, attribute by attribute in the
      given order: every row shows an option of one of them, and every option
      of every one of them is shown. */
  function AttributeOptionRows(entityName: string, attrs: seq<AttributeSchema>): (rows: seq<seq<string>>)
    ensures |rows| == Sum(attrs, OptionCountOf())
    ensures forall row {:trigger RowOfSomeOption(row, entityName, attrs)} ::
      row in rows ==> RowOfSomeOption(row, entityName, attrs)
    ensures forall a, o {:trigger OptionListed(rows, entityName, a, o)} ::
      a in attrs && a.optionSet.Some? && o in a.optionSet.value.options ==> OptionListed(rows, entityName, a, o)
  {
    var f := OptionRowsOf(entityName);
    var rows := FlatMap(attrs, f);
    FlatMapLength(attrs, f, OptionCountOf());
    forall row | row in rows ensures RowOfSomeOption(row, entityName, attrs) {
      var m := FlatMapSource(attrs, f, RowIndex(rows, row));
      OptionRowsCorrespond(entityName, attrs[m]);
      assert ShowsOptionOf(row, entityName, attrs[m]);
    }
    forall a, o | a in attrs && a.optionSet.Some? && o in a.optionSet.value.options
      ensures OptionListed(rows, entityName, a, o)
    {
      OptionRowsCorrespond(entityName, a);
      assert OptionListed(OptionRows(entityName, a), entityName, a, o);
      var row :| row in OptionRows(entityName, a) && RowOfOption(row, entityName, a, o);
      FlatMapContains(attrs, f, a, row);
    }
    rows
  }

  /** The position of an element of a sequence. */
  function RowIndex(rows: seq<seq<string>>, row: seq<string>): (i: nat)
    requires row in rows
    ensures i < |rows| && rows[i] == row
  {
    if rows[0] == row then 0 else 1 + RowIndex(rows[1..], row)
  }

  /** The attributes of `e` that have an option set, in logical-name order. */
  function OptionAttributes(e: EntitySchema, key: string -> seq<int>): (r: seq<AttributeSchema>)
    ensures forall a :: a in r <==> a in e.attributes && a.optionSet.Some?
    ensures SortedBy(r, AttributeRank(key))
    ensures Sum(r, OptionCountOf()) == Sum(e.attributes, OptionCountOf())
  {
    var withSets := WithOptionSet(e.attributes);
    SortMembers(withSets, AttributeRank(key));
    SumPermutation(SortBy(withSets, AttributeRank(key)), withSets, OptionCountOf());
    SortBy(withSets, AttributeRank(key))
  }

  /** The option rows of one entity: every row names the entity and shows an
      option of one of its attributes, every option of every attribute is
      shown, and the rows follow the attributes' logical-name order. */
  function EntityOptionRows(e: EntitySchema, key: string -> seq<int>): (rows: seq<seq<string>>)
    ensures |rows| == Sum(e.attributes, OptionCountOf())
    ensures forall row {:trigger RowOfSomeOption(row, e.logicalName, e.attributes)} ::
      row in rows ==> RowOfSomeOption(row, e.logicalName, e.attributes)
    ensures forall a, o {:trigger OptionListed(rows, e.logicalName, a, o)} ::
      a in e.attributes && a.optionSet.Some? && o in a.optionSet.value.options ==> OptionListed(rows, e.logicalName, a, o)
    ensures SortedBy(rows, CellKey(key, 1))
  {
    var attrs := OptionAttributes(e, key);
    var rows := AttributeOptionRows(e.logicalName, attrs);
    forall row | row in rows ensures RowOfSomeOption(row, e.logicalName, e.attributes) {
      assert RowOfSomeOption(row, e.logicalName, attrs);
    }
    forall a, o | a in e.attributes && a.optionSet.Some? && o in a.optionSet.value.options
      ensures OptionListed(rows, e.logicalName, a, o)
    {
      assert a in attrs;
      assert OptionListed(rows, e.logicalName, a, o);
    }
    OptionRowsKeyed(e.logicalName, attrs, key);
    FlatMapSorted(attrs, OptionRowsOf(e.logicalName), AttributeRank(key), CellKey(key, 1));
    rows
  }

  /** Each row of an attribute's block carries the attribute's logical name. */
  lemma OptionRowsKeyed(entityName: string, attrs: seq<AttributeSchema>, key: string -> seq<int>)
    ensures forall a, row :: a in attrs && row in OptionRowsOf(entityName)(a) ==>
      CellKey(key, 1)(row) == AttributeRank(key)(a)
  {
    forall a, row | a in attrs && row in OptionRowsOf(entityName)(a)
      ensures CellKey(key, 1)(row) == AttributeRank(key)(a)
    {
      var rows := OptionRows(entityName, a);
      var i := RowIndex(rows, row);
      assert OptionSetLayout(rows, entityName, a);
    }
  }

  /** Within an entity's rows, the rows of each attribute sit together, right
      after those of the attributes before it, and are that attribute's option
      rows: one per option, ascending by value, the set's name and global flag
      on the first row only. */
  lemma AttributeOptionBlock(e: EntitySchema, key: string -> seq<int>, m: nat)
    requires m < |OptionAttributes(e, key)|
    ensures var attrs := OptionAttributes(e, key);
      var f := OptionRowsOf(e.logicalName);
      && attrs[m].optionSet.Some?
      && Offset(attrs, f, m) <= Offset(attrs, f, m + 1) <= |EntityOptionRows(e, key)|
      && EntityOptionRows(e, key)[Offset(attrs, f, m)..Offset(attrs, f, m + 1)] == OptionRows(e.logicalName, attrs[m])
  {
    var attrs := OptionAttributes(e, key);
    assert attrs[m] in attrs;
    assert EntityOptionRows(e, key) == FlatMap(attrs, OptionRowsOf(e.logicalName));
    FlatMapBlock(attrs, OptionRowsOf(e.logicalName), m);
  }

  function EntityOptionRowsOf(key: string -> seq<int>): EntitySchema -> seq<seq<string>> {
    (e: EntitySchema) => EntityOptionRows(e, key)
  }

  /** `row` shows an option of an attribute of one of `entities`. */
  ghost predicate OptionRowIn(row: seq<string>, entities: seq<EntitySchema>) {
    exists e :: e in entities && RowOfSomeOption(row, e.logicalName, e.attributes)
  }

  /** The option rows of the entities, entity by entity in the given order. */
  function EntitiesOptionRows(entities: seq<EntitySchema>, key: string -> seq<int>): (rows: seq<seq<string>>)
    ensures |rows| == TotalOptions(entities)
    ensures forall row {:trigger OptionRowIn(row, entities)} :: row in rows ==> OptionRowIn(row, entities)
    ensures forall e, a, o {:trigger OptionListed(rows, e.logicalName, a, o), e in entities} ::
      e in entities && a in e.attributes && a.optionSet.Some? && o in a.optionSet.value.options ==>
      OptionListed(rows, e.logicalName, a, o)
  {
    var f := EntityOptionRowsOf(key);
    var rows := FlatMap(entities, f);
    FlatMapLength(entities, f, EntityOptionCountOf());
    forall row | row in rows ensures OptionRowIn(row, entities) {
      var k := FlatMapSource(entities, f, RowIndex(rows, row));
      assert RowOfSomeOption(row, entities[k].logicalName, entities[k].attributes);
    }
    forall e, a, o | e in entities && a in e.attributes && a.optionSet.Some? && o in a.optionSet.value.options
      ensures OptionListed(rows, e.logicalName, a, o)
    {
      assert OptionListed(EntityOptionRows(e, key), e.logicalName, a, o);
      var row :| row in EntityOptionRows(e, key) && RowOfOption(row, e.logicalName, a, o);
      FlatMapContains(entities, f, e, row);
    }
    rows
  }

  /** `CreateOptionSetsSheet`: the header, then one row per option of every
      attribute that has an option set: every row shows such an option, every
      such option is shown, and the rows follow the entities' logical-name
      order. */
  function OptionSetsSheet(schema: PowerAppsSchema, key: string -> seq<int>): (s: Sheet)
    ensures s.name == OptionSetsSheetName
    ensures |s.rows| == 1 + TotalOptions(schema.entities)
    ensures s.rows[0] == OptionSetColumns
    ensures forall row {:trigger OptionRowIn(row, schema.entities)} ::
      row in s.rows[1..] ==> OptionRowIn(row, schema.entities)
    ensures forall e, a, o {:trigger OptionListed(s.rows[1..], e.logicalName, a, o), e in schema.entities} ::
      e in schema.entities && a in e.attributes && a.optionSet.Some? && o in a.optionSet.value.options ==>
      OptionListed(s.rows[1..], e.logicalName, a, o)
    ensures SortedBy(s.rows[1..], CellKey(key, 0))
  {
    var sorted := SortBy(schema.entities, EntityRank(key));
    var rows := EntitiesOptionRows(sorted, key);
    SumPermutation(sorted, schema.entities, EntityOptionCountOf());
    SortMembers(schema.entities, EntityRank(key));
    forall row | row in rows ensures OptionRowIn(row, schema.entities) {
      assert OptionRowIn(row, sorted);
    }
    forall e, a, o | e in schema.entities && a in e.attributes && a.optionSet.Some? && o in a.optionSet.value.options
      ensures OptionListed(rows, e.logicalName, a, o)
    {
      assert e in sorted;
      assert OptionListed(rows, e.logicalName, a, o);
    }
    EntityRowsKeyed(sorted, key);
    FlatMapSorted(sorted, EntityOptionRowsOf(key), EntityRank(key), CellKey(key, 0));
    assert ([OptionSetColumns] + rows)[1..] == rows;
    Sheet(OptionSetsSheetName, [OptionSetColumns] + rows)
  }

  /** Each row of an entity's block carries the entity's logical name. */
  lemma EntityRowsKeyed(entities: seq<EntitySchema>, key: string -> seq<int>)
    ensures forall e, row :: e in entities && row in EntityOptionRowsOf(key)(e) ==>
      CellKey(key, 0)(row) == EntityRank(key)(e)
  {
    forall e, row | e in entities && row in EntityOptionRowsOf(key)(e)
      ensures CellKey(key, 0)(row) == EntityRank(key)(e)
    {
      assert RowOfSomeOption(row, e.logicalName, e.attributes);
      var a :| a in e.attributes && ShowsOptionOf(row, e.logicalName, a);
    }
  }

  /** In the Option Sets sheet, the rows of each entity (taken in
      logical-name order) sit together, right after those of the entities
      before it, and are that entity's option rows. */
  lemma EntityOptionBlock(schema: PowerAppsSchema, key: string -> seq<int>, k: nat)
    requires k < |schema.entities|
    ensures var sorted := SortBy(schema.entities, EntityRank(key));
      var f := EntityOptionRowsOf(key);
      var rows := OptionSetsSheet(schema, key).rows[1..];
      && Offset(sorted, f, k) <= Offset(sorted, f, k + 1) <= |rows|
      && rows[Offset(sorted, f, k)..Offset(sorted, f, k + 1)] == EntityOptionRows(sorted[k], key)
  {
    var sorted := SortBy(schema.entities, EntityRank(key));
    assert OptionSetsSheet(schema, key).rows[1..] == FlatMap(sorted, EntityOptionRowsOf(key));
    FlatMapBlock(sorted, EntityOptionRowsOf(key), k);
  }

  // ---------------------------------------------------------------------
  // The workbook

  /** The logical name shown on an entity sheet (cell B2). */
  function SheetEntityName(s: Sheet): string {
    if 1 < |s.rows| && 1 < |s.rows[1]| then s.rows[1][1] else ""
  }

  /** Sheets whose logical-name cells follow a key-sorted entity list are in
      key order. */
  lemma SheetsInKeyOrder(sorted: seq<EntitySchema>, sheets: seq<Sheet>, key: string -> seq<int>)
    requires |sheets| == |sorted| && SortedBy(sorted, EntityRank(key))
    requires forall i :: 0 <= i < |sheets| ==> CellIs(sheets[i].rows, 1, 1, sorted[i].logicalName)
    ensures forall i :: 0 <= i < |sheets| ==> CellIs(sheets[i].rows, 1, 1, SheetEntityName(sheets[i]))
    ensures forall i, j :: 0 <= i < j < |sheets| ==> KeyLe(key(SheetEntityName(sheets[i])), key(SheetEntityName(sheets[j])))
  {
    forall i, j | 0 <= i < j < |sheets|
      ensures KeyLe(key(SheetEntityName(sheets[i])), key(SheetEntityName(sheets[j])))
    {
      assert KeyLe(EntityRank(key)(sorted[i]), EntityRank(key)(sorted[j]));
    }
  }

  function SheetOf(key: string -> seq<int>, fmt: Formats): EntitySchema -> Sheet {
    (e: EntitySchema) => EntitySheet(e, key, fmt)
  }

  /** The sheets of the given entities, in the given order. */
  function SheetsOf(es: seq<EntitySchema>, key: string -> seq<int>, fmt: Formats): (sheets: seq<Sheet>)
    ensures |sheets| == |es|
    ensures forall i :: 0 <= i < |es| ==> sheets[i] == EntitySheet(es[i], key, fmt)
    ensures forall i :: 0 <= i < |es| ==> CellIs(sheets[i].rows, 1, 1, es[i].logicalName)
    ensures forall i :: 0 <= i < |es| ==> ValidSheetName(sheets[i].name)
  {
    var sheets := Map(es, SheetOf(key, fmt));
    forall i | 0 <= i < |es| ensures ValidSheetName(sheets[i].name) {
      SanitizedNameValid(es[i].logicalName);
    }
    sheets
  }

  /** `s` is the sheet of one of `entities`. */
  ghost predicate SheetOfSome(s: Sheet, entities: seq<EntitySchema>, key: string -> seq<int>, fmt: Formats) {
    exists e :: e in entities && s == EntitySheet(e, key, fmt)
  }

  /** Each sheet of a reordering of `entities` is the sheet of one of them. */
  lemma SheetsOfMembers(sorted: seq<EntitySchema>, entities: seq<EntitySchema>, sheets: seq<Sheet>,
                        key: string -> seq<int>, fmt: Formats)
    requires multiset(sorted) == multiset(entities)
    requires |sheets| == |sorted|
    requires forall i :: 0 <= i < |sorted| ==> sheets[i] == EntitySheet(sorted[i], key, fmt)
    ensures forall i :: 0 <= i < |sheets| ==> SheetOfSome(sheets[i], entities, key, fmt)
  {
    forall i | 0 <= i < |sheets| ensures SheetOfSome(sheets[i], entities, key, fmt) {
      assert sorted[i] in multiset(entities);
    }
  }

  /** The sheets of a reordering of `entities` reorder the entities' sheets
      and include the sheet of every one of them. */
  lemma SheetForEveryEntity(sorted: seq<EntitySchema>, entities: seq<EntitySchema>, key: string -> seq<int>, fmt: Formats)
    requires multiset(sorted) == multiset(entities)
    ensures forall e :: e in entities ==> EntitySheet(e, key, fmt) in SheetsOf(sorted, key, fmt)
    ensures multiset(SheetsOf(sorted, key, fmt)) == multiset(Map(entities, SheetOf(key, fmt)))
  {
    MapPermutation(sorted, entities, SheetOf(key, fmt));
    MapMembers(sorted, SheetOf(key, fmt));
    forall e | e in entities ensures e in sorted {
      assert e in multiset(sorted);
    }
  }

  /** One sheet per entity, in logical-name order. */
  function EntitySheets(entities: seq<EntitySchema>, key: string -> seq<int>, fmt: Formats): (sheets: seq<Sheet>)
    ensures |sheets| == |entities|
    ensures forall i :: 0 <= i < |sheets| ==> sheets[i] == EntitySheet(SortBy(entities, EntityRank(key))[i], key, fmt)
    ensures forall i :: 0 <= i < |sheets| ==> SheetOfSome(sheets[i], entities, key, fmt)
    ensures forall e :: e in entities ==> EntitySheet(e, key, fmt) in sheets
    ensures multiset(sheets) == multiset(Map(entities, SheetOf(key, fmt)))
    ensures forall i :: 0 <= i < |sheets| ==> CellIs(sheets[i].rows, 1, 1, SheetEntityName(sheets[i]))
    ensures forall i, j :: 0 <= i < j < |sheets| ==> KeyLe(key(SheetEntityName(sheets[i])), key(SheetEntityName(sheets[j])))
    ensures forall i :: 0 <= i < |sheets| ==> ValidSheetName(sheets[i].name)
  {
    var sorted := SortBy(entities, EntityRank(key));
    var sheets := SheetsOf(sorted, key, fmt);
    SheetsInKeyOrder(sorted, sheets, key);
    SheetsOfMembers(sorted, entities, sheets, key, fmt);
    SheetForEveryEntity(sorted, entities, key, fmt);
    sheets
  }

  /** `ExportToExcel`: "Summary", then one sheet per entity in logical-name
      order, then "Option Sets". */
  function ExportToExcel(schema: PowerAppsSchema, key: string -> seq<int>, fmt: Formats): (book: seq<Sheet>)
    ensures |book| == |schema.entities| + 2
    ensures book[0] == SummarySheet(schema, key, fmt)
    ensures book[|book| - 1] == OptionSetsSheet(schema, key)
    ensures book[1..|book| - 1] == EntitySheets(schema.entities, key, fmt)
  {
    var sheets := EntitySheets(schema.entities, key, fmt);
    var book := [SummarySheet(schema, key, fmt)] + sheets + [OptionSetsSheet(schema, key)];
    assert book[1..|book| - 1] == sheets;
    book
  }

  // ---------------------------------------------------------------------
  // Agreement between the exports

  /** The attribute rows below the header block of an entity sheet. */
  function AttributeRowCountOf(): Sheet -> nat {
    (s: Sheet) => if |s.rows| >= EntityHeaderRows then |s.rows| - EntityHeaderRows else 0
  }

  lemma {:induction false} SheetRowsMatchEntities(es: seq<EntitySchema>, sheets: seq<Sheet>, key: string -> seq<int>, fmt: Formats)
    requires |sheets| == |es|
    requires forall i :: 0 <= i < |es| ==> sheets[i] == EntitySheet(es[i], key, fmt)
    ensures Sum(sheets, AttributeRowCountOf()) == TotalAttributes(es)
    decreases |es|
  {
    if |es| > 0 {
      SheetRowsMatchEntities(es[1..], sheets[1..], key, fmt);
    }
  }

  /** The entity sheets hold one attribute row per attribute of the schema. */
  lemma EntitySheetsAttributeRows(entities: seq<EntitySchema>, key: string -> seq<int>, fmt: Formats)
    ensures Sum(EntitySheets(entities, key, fmt), AttributeRowCountOf()) == TotalAttributes(entities)
  {
    var sorted := SortBy(entities, EntityRank(key));
    var sheets := EntitySheets(entities, key, fmt);
    assert forall i :: 0 <= i < |sorted| ==> sheets[i] == EntitySheet(sorted[i], key, fmt);
    SheetRowsMatchEntities(sorted, sheets, key, fmt);
    SumPermutation(sorted, entities, AttributeCountOf());
  }

  /** The summary's counts agree with the rest of the workbook and with the
      CSV export: one sheet per entity, one attribute row per CSV data line. */
  lemma SummaryAgreesWithExports(schema: PowerAppsSchema, key: string -> seq<int>, fmt: Formats)
    ensures var book := ExportToExcel(schema, key, fmt);
      && CellShows(book[0].rows, TotalEntitiesRow, 1, |book| - 2)
      && CellShows(book[0].rows, TotalAttributesRow, 1, |CsvExport.ExportToCsv(schema, key)| - 1)
      && CellShows(book[0].rows, TotalAttributesRow, 1, Sum(book[1..|book| - 1], AttributeRowCountOf()))
  {
    var book := ExportToExcel(schema, key, fmt);
    var head := SummaryHead(schema, fmt);
    assert book[0].rows == head + EntitySummaryRows(schema.entities, key);
    assert book[0].rows[TotalEntitiesRow] == head[TotalEntitiesRow];
    assert book[0].rows[TotalAttributesRow] == head[TotalAttributesRow];
    EntitySheetsAttributeRows(schema.entities, key, fmt);
  }

  /** Sheet `i + 1` of the workbook is the sheet of the `i`-th entity in key order. */
  lemma BookEntitySheet(schema: PowerAppsSchema, key: string -> seq<int>, fmt: Formats, i: nat)
    requires i < |schema.entities|
    ensures ExportToExcel(schema, key, fmt)[i + 1] == EntitySheet(SortBy(schema.entities, EntityRank(key))[i], key, fmt)
  {
    var book := ExportToExcel(schema, key, fmt);
    assert book[i + 1] == book[1..|book| - 1][i];
  }

  /** For an extracted schema, whose entities are already in logical-name
      order, the entity sheets follow the stored order. */
  lemma ExtractedSchemaSheetOrder(schema: PowerAppsSchema, key: string -> seq<int>, fmt: Formats)
    requires SortedBy(schema.entities, EntityRank(key))
    ensures var book := ExportToExcel(schema, key, fmt);
      forall i :: 0 <= i < |schema.entities| ==> book[i + 1] == EntitySheet(schema.entities[i], key, fmt)
  {
    SortSorted(schema.entities, EntityRank(key));
    forall i | 0 <= i < |schema.entities|
      ensures ExportToExcel(schema, key, fmt)[i + 1] == EntitySheet(schema.entities[i], key, fmt)
    {
      BookEntitySheet(schema, key, fmt, i);
    }
  }

  /** A sheet name never exceeds 31 characters nor holds a forbidden
      character, whatever the entity's logical name. */
  lemma EntitySheetNamesValid(schema: PowerAppsSchema, key: string -> seq<int>, fmt: Formats)
    ensures var book := ExportToExcel(schema, key, fmt);
      forall i :: 1 <= i < |book| - 1 ==> ValidSheetName(book[i].name)
  {
    var book := ExportToExcel(schema, key, fmt);
    var sheets := EntitySheets(schema.entities, key, fmt);
    forall i | 1 <= i < |book| - 1
      ensures ValidSheetName(book[i].name)
    {
      assert book[i] == sheets[i - 1];
    }
  }
}

=== FILE: extractor.dfy ===
/** The extraction pipeline of SchemaExtractor.cs: solution resolution, the
    solution filter, deterministic ordering, the attribute filters, the
    normalisation of the polymorphic attribute metadata, option sets and
    relationships. The remote service is the `ServiceSnapshot` input; the
    current culture's string order is the sort-key function `key`. */
module SchemaExtractor {
  import opened Wrappers
  import opened Text
  import opened Ordering
  import opened Models
  import opened Metadata

  /** The `componenttype` code of an entity in `solutioncomponent`. */
  const EntityComponentType: int := 1

  /** Values the extractor reads from its environment rather than the
      metadata: the clock, the organisation endpoint and the organisation's
      friendly name. */
  datatype Environment = Environment(now: Instant, environmentUrl: string, organizationName: string)

  // ---------------------------------------------------------------------
  // Option sets

  /** The option set an enumeration attribute carries, if it is one of the
      three enumeration subclasses the extractor recognises. */
  function SourceOptionSet(v: AttributeVariant): Option<RawOptionSet> {
    match v
    case PicklistAttribute(os) => os
    case StateAttribute(os) => os
    case StatusAttribute(os) => os
    case _ => None
  }

  function ExtractOption(o: RawOption): (r: OptionSchema)
    ensures o.value.None? ==> r.value == 0
    ensures o.value.Some? ==> r.value == o.value.value
    ensures r.labelText == o.labelText
  {
    OptionSchema(o.value.GetOr(0), o.labelText)
  }

  function ExtractOptions(raw: seq<RawOption>): (r: seq<OptionSchema>)
    ensures |r| == |raw|
    ensures forall i :: 0 <= i < |raw| ==> r[i] == ExtractOption(raw[i])
  {
    seq(|raw|, i requires 0 <= i < |raw| => ExtractOption(raw[i]))
  }

  /** `ExtractOptionSet`: the first of picklist, state and status whose option
      set is present; state and status sets are never global. */
  function ExtractOptionSet(a: RawAttribute): (r: Option<OptionSetSchema>)
    ensures r.Some? <==>
      || (a.variant.PicklistAttribute? && a.variant.picklistOptions.Some?)
      || (a.variant.StateAttribute? && a.variant.stateOptions.Some?)
      || (a.variant.StatusAttribute? && a.variant.statusOptions.Some?)
    ensures r.Some? ==>
      (r.value.isGlobal <==> a.variant.PicklistAttribute? && a.variant.picklistOptions.value.isGlobal == Some(true))
    ensures r.Some? ==>
      var src := SourceOptionSet(a.variant).value;
      && r.value.name == src.name
      && |r.value.options| == |src.options|
      && forall i :: 0 <= i < |src.options| ==>
           && r.value.options[i].value == src.options[i].value.GetOr(0)
           && r.value.options[i].labelText == src.options[i].labelText
  {
    match a.variant
    case PicklistAttribute(Some(os)) =>
      Some(OptionSetSchema(os.name, os.isGlobal.GetOr(false), ExtractOptions(os.options)))
    case StateAttribute(Some(os)) =>
      Some(OptionSetSchema(os.name, false, ExtractOptions(os.options)))
    case StatusAttribute(Some(os)) =>
      Some(OptionSetSchema(os.name, false, ExtractOptions(os.options)))
    case _ => None
  }

  // ---------------------------------------------------------------------
  // Attribute normalisation: `(attribute as X)?.P ?? (attribute as Y)?.P ...`

  function ToReal(o: Option<int>): (r: Option<real>)
    ensures r.Some? <==> o.Some?
    ensures o.Some? ==> r.value == o.value as real
  {
    match o
    case Some(n) => Some(n as real)
    case None => None
  }

  function MaxLengthOf(v: AttributeVariant): Option<int> {
    if v.StringAttribute? then v.maxLength else None
  }

  function FormatOf(v: AttributeVariant): Option<string> {
    var asString := if v.StringAttribute? then v.stringFormat else None;
    var asDateTime := if v.DateTimeAttribute? then v.dateFormat else None;
    asString.OrElse(asDateTime)
  }

  function MinValueOf(v: AttributeVariant): Option<real> {
    var asInteger := if v.IntegerAttribute? then ToReal(v.intMin) else None;
    var asDecimal := if v.DecimalAttribute? then v.decMin else None;
    var asDouble := if v.DoubleAttribute? then v.dblMin else None;
    var asMoney := if v.MoneyAttribute? then v.moneyMin else None;
    asInteger.OrElse(asDecimal).OrElse(asDouble).OrElse(asMoney)
  }

  function MaxValueOf(v: AttributeVariant): Option<real> {
    var asInteger := if v.IntegerAttribute? then ToReal(v.intMax) else None;
    var asDecimal := if v.DecimalAttribute? then v.decMax else None;
    var asDouble := if v.DoubleAttribute? then v.dblMax else None;
    var asMoney := if v.MoneyAttribute? then v.moneyMax else None;
    asInteger.OrElse(asDecimal).OrElse(asDouble).OrElse(asMoney)
  }

  function PrecisionOf(v: AttributeVariant): Option<int> {
    var asDecimal := if v.DecimalAttribute? then v.decPrecision else None;
    var asMoney := if v.MoneyAttribute? then v.moneyPrecision else None;
    asDecimal.OrElse(asMoney)
  }

  function TargetsOf(v: AttributeVariant): Option<seq<string>> {
    if v.LookupAttribute? then v.targets else None
  }

  /** Flattens one attribute. Each type-conditional field is present exactly
      when the attribute is of a subclass that defines it and the subclass's
      value is non-null; nullable flags read as `false` when missing. */
  function NormalizeAttribute(a: RawAttribute): (r: AttributeSchema)
    ensures r.logicalName == a.logicalName && r.schemaName == a.schemaName
    ensures r.displayName == a.displayName && r.description == a.description
    ensures r.attributeType == a.attributeType && r.requiredLevel == a.requiredLevel
    ensures r.isCustomAttribute <==> a.isCustomAttribute == Some(true)
    ensures r.isPrimaryId <==> a.isPrimaryId == Some(true)
    ensures r.isPrimaryName <==> a.isPrimaryName == Some(true)
    ensures r.isValidForCreate <==> a.isValidForCreate == Some(true)
    ensures r.isValidForUpdate <==> a.isValidForUpdate == Some(true)
    ensures r.isValidForRead <==> a.isValidForRead == Some(true)
    // MaxLength: string only
    ensures r.maxLength.Some? <==> a.variant.StringAttribute? && a.variant.maxLength.Some?
    ensures r.maxLength.Some? ==> r.maxLength == a.variant.maxLength
    // Format: string, else date/time
    ensures r.format.Some? <==>
      || (a.variant.StringAttribute? && a.variant.stringFormat.Some?)
      || (a.variant.DateTimeAttribute? && a.variant.dateFormat.Some?)
    ensures a.variant.StringAttribute? ==> r.format == a.variant.stringFormat
    ensures a.variant.DateTimeAttribute? ==> r.format == a.variant.dateFormat
    // MinValue / MaxValue: integer, else decimal, else double, else money
    ensures r.minValue.Some? <==>
      || (a.variant.IntegerAttribute? && a.variant.intMin.Some?)
      || (a.variant.DecimalAttribute? && a.variant.decMin.Some?)
      || (a.variant.DoubleAttribute? && a.variant.dblMin.Some?)
      || (a.variant.MoneyAttribute? && a.variant.moneyMin.Some?)
    ensures r.maxValue.Some? <==>
      || (a.variant.IntegerAttribute? && a.variant.intMax.Some?)
      || (a.variant.DecimalAttribute? && a.variant.decMax.Some?)
      || (a.variant.DoubleAttribute? && a.variant.dblMax.Some?)
      || (a.variant.MoneyAttribute? && a.variant.moneyMax.Some?)
    ensures a.variant.IntegerAttribute? && a.variant.intMin.Some? ==> r.minValue == Some(a.variant.intMin.value as real)
    ensures a.variant.IntegerAttribute? && a.variant.intMax.Some? ==> r.maxValue == Some(a.variant.intMax.value as real)
    ensures a.variant.DecimalAttribute? ==> r.minValue == a.variant.decMin && r.maxValue == a.variant.decMax
    ensures a.variant.DoubleAttribute? ==> r.minValue == a.variant.dblMin && r.maxValue == a.variant.dblMax
    ensures a.variant.MoneyAttribute? ==> r.minValue == a.variant.moneyMin && r.maxValue == a.variant.moneyMax
    // Precision: decimal, else money
    ensures r.precision.Some? <==>
      || (a.variant.DecimalAttribute? && a.variant.decPrecision.Some?)
      || (a.variant.MoneyAttribute? && a.variant.moneyPrecision.Some?)
    ensures a.variant.DecimalAttribute? ==> r.precision == a.variant.decPrecision
    ensures a.variant.MoneyAttribute? ==> r.precision == a.variant.moneyPrecision
    // Targets: lookup only
    ensures r.targets.Some? <==> a.variant.LookupAttribute? && a.variant.targets.Some?
    ensures r.targets.Some? ==> r.targets == a.variant.targets
    ensures r.optionSet == ExtractOptionSet(a)
  {
    AttributeSchema(
      logicalName := a.logicalName,
      schemaName := a.schemaName,
      displayName := a.displayName,
      description := a.description,
      attributeType := a.attributeType,
      isCustomAttribute := a.isCustomAttribute.GetOr(false),
      isPrimaryId := a.isPrimaryId.GetOr(false),
      isPrimaryName := a.isPrimaryName.GetOr(false),
      isValidForCreate := a.isValidForCreate.GetOr(false),
      isValidForUpdate := a.isValidForUpdate.GetOr(false),
      isValidForRead := a.isValidForRead.GetOr(false),
      requiredLevel := a.requiredLevel,
      maxLength := MaxLengthOf(a.variant),
      format := FormatOf(a.variant),
      minValue := MinValueOf(a.variant),
      maxValue := MaxValueOf(a.variant),
      precision := PrecisionOf(a.variant),
      optionSet := ExtractOptionSet(a),
      targets := TargetsOf(a.variant))
  }

  // ---------------------------------------------------------------------
  // Attribute filters

  /** The prefix filter (skipped when the prefix is blank; ordinal,
      case-insensitive) and then the exclusion filter (skipped when there is
      no exclusion set; exact match). */
  predicate KeepAttribute(name: string, prefix: Option<string>, exclude: Option<set<string>>) {
    if !IsBlank(prefix) && !StartsWithIgnoreCase(name, prefix.value) then false
    else if exclude.Some? && name in exclude.value then false
    else true
  }

  /** The attributes that pass both filters, normalised, in their order. */
  function NormalizeKept(attrs: seq<RawAttribute>, prefix: Option<string>, exclude: Option<set<string>>): (r: seq<AttributeSchema>)
    ensures |r| <= |attrs|
    ensures forall x :: x in r <==>
      exists a :: a in attrs && KeepAttribute(a.logicalName, prefix, exclude) && x == NormalizeAttribute(a)
    ensures forall i :: 0 <= i < |r| ==>
      exists j :: 0 <= j < |attrs| && r[i].logicalName == attrs[j].logicalName
    decreases |attrs|
  {
    if |attrs| == 0 then []
    else
      var rest := NormalizeKept(attrs[1..], prefix, exclude);
      assert forall a :: a in attrs <==> a == attrs[0] || a in attrs[1..];
      if KeepAttribute(attrs[0].logicalName, prefix, exclude) then [NormalizeAttribute(attrs[0])] + rest
      else rest
  }

  /** One attribute's contribution to `NormalizeKept`. */
  function KeptOf(prefix: Option<string>, exclude: Option<set<string>>): RawAttribute -> seq<AttributeSchema> {
    (a: RawAttribute) => if KeepAttribute(a.logicalName, prefix, exclude) then [NormalizeAttribute(a)] else []
  }

  /** Filtering works one attribute at a time, so filtering a reordering
      gives a reordering of the kept records. */
  lemma {:induction false} NormalizeKeptPermutation(s: seq<RawAttribute>, t: seq<RawAttribute>,
                                                    prefix: Option<string>, exclude: Option<set<string>>)
    requires multiset(s) == multiset(t)
    ensures multiset(NormalizeKept(s, prefix, exclude)) == multiset(NormalizeKept(t, prefix, exclude))
  {
    NormalizeKeptOneByOne(s, prefix, exclude);
    NormalizeKeptOneByOne(t, prefix, exclude);
    FlatMapPermutation(s, t, KeptOf(prefix, exclude));
  }

  lemma {:induction false} NormalizeKeptOneByOne(attrs: seq<RawAttribute>, prefix: Option<string>, exclude: Option<set<string>>)
    ensures NormalizeKept(attrs, prefix, exclude) == FlatMap(attrs, KeptOf(prefix, exclude))
    decreases |attrs|
  {
    if |attrs| > 0 {
      NormalizeKeptOneByOne(attrs[1..], prefix, exclude);
    }
  }

  /** Filtering keeps the logical-name order of the attributes it keeps. */
  lemma {:induction false} NormalizeKeptSorted(attrs: seq<RawAttribute>, prefix: Option<string>,
                                               exclude: Option<set<string>>, key: string -> seq<int>)
    requires SortedBy(attrs, RawAttributeRank(key))
    ensures SortedBy(NormalizeKept(attrs, prefix, exclude), AttributeRank(key))
    decreases |attrs|
  {
    if |attrs| > 0 {
      var tail := attrs[1..];
      SortedTail(attrs, RawAttributeRank(key));
      NormalizeKeptSorted(tail, prefix, exclude, key);
      var rest := NormalizeKept(tail, prefix, exclude);
      if KeepAttribute(attrs[0].logicalName, prefix, exclude) {
        var head := NormalizeAttribute(attrs[0]);
        forall j | 0 <= j < |rest|
          ensures KeyLe(AttributeRank(key)(head), AttributeRank(key)(rest[j]))
        {
          var k :| 0 <= k < |tail| && rest[j].logicalName == tail[k].logicalName;
          assert KeyLe(RawAttributeRank(key)(attrs[0]), RawAttributeRank(key)(attrs[k + 1]));
        }
        SortedCons(head, rest, AttributeRank(key));
      }
    }
  }

  // ---------------------------------------------------------------------
  // Entities

  /** The attribute list of one entity record: the entity's attributes
      ordered by logical name, then filtered and normalised; none when the
      entity carries no attribute list. */
  function EntityAttributes(e: RawEntity, prefix: Option<string>, exclude: Option<set<string>>,
                            key: string -> seq<int>): (r: seq<AttributeSchema>)
    ensures e.attributes.None? ==> r == []
    ensures forall x :: x in r <==>
      && e.attributes.Some?
      && exists a :: a in e.attributes.value && KeepAttribute(a.logicalName, prefix, exclude) && x == NormalizeAttribute(a)
    ensures SortedBy(r, AttributeRank(key))
  {
    match e.attributes
    case None => []
    case Some(attrs) =>
      var sorted := SortBy(attrs, RawAttributeRank(key));
      SortMembers(attrs, RawAttributeRank(key));
      NormalizeKeptSorted(sorted, prefix, exclude, key);
      NormalizeKept(sorted, prefix, exclude)
  }

  /** An entity's attribute list holds each kept attribute's record exactly
      as often as the filter yields it: sorting adds and drops nothing. */
  lemma EntityAttributesOnePerKept(e: RawEntity, prefix: Option<string>, exclude: Option<set<string>>,
                                   key: string -> seq<int>)
    requires e.attributes.Some?
    ensures multiset(EntityAttributes(e, prefix, exclude, key))
         == multiset(NormalizeKept(e.attributes.value, prefix, exclude))
  {
    var attrs := e.attributes.value;
    NormalizeKeptPermutation(SortBy(attrs, RawAttributeRank(key)), attrs, prefix, exclude);
  }

  /** One entity record; nullable flags read as `false` when missing. */
  function ExtractEntity(e: RawEntity, prefix: Option<string>, exclude: Option<set<string>>,
                         key: string -> seq<int>): (r: EntitySchema)
    ensures r.logicalName == e.logicalName && r.schemaName == e.schemaName
    ensures r.displayName == e.displayName && r.description == e.description
    ensures r.primaryIdAttribute == e.primaryIdAttribute && r.primaryNameAttribute == e.primaryNameAttribute
    ensures r.entitySetName == e.entitySetName && r.ownershipType == e.ownershipType
    ensures r.isCustomEntity <==> e.isCustomEntity == Some(true)
    ensures r.isActivity <==> e.isActivity == Some(true)
    ensures r.attributes == EntityAttributes(e, prefix, exclude, key)
  {
    EntitySchema(
      logicalName := e.logicalName,
      schemaName := e.schemaName,
      displayName := e.displayName,
      description := e.description,
      primaryIdAttribute := e.primaryIdAttribute,
      primaryNameAttribute := e.primaryNameAttribute,
      entitySetName := e.entitySetName,
      isCustomEntity := e.isCustomEntity.GetOr(false),
      isActivity := e.isActivity.GetOr(false),
      ownershipType := e.ownershipType,
      attributes := EntityAttributes(e, prefix, exclude, key))
  }

  function ExtractEntityOf(prefix: Option<string>, exclude: Option<set<string>>,
                           key: string -> seq<int>): RawEntity -> EntitySchema {
    (e: RawEntity) => ExtractEntity(e, prefix, exclude, key)
  }

  /** One record per entity, in the given order. */
  function ExtractEntities(entities: seq<RawEntity>, prefix: Option<string>, exclude: Option<set<string>>,
                           key: string -> seq<int>): (r: seq<EntitySchema>)
    ensures |r| == |entities|
    ensures forall i :: 0 <= i < |entities| ==> r[i] == ExtractEntity(entities[i], prefix, exclude, key)
  {
    Map(entities, ExtractEntityOf(prefix, exclude, key))
  }

  // ---------------------------------------------------------------------
  // Relationships

  function OneToManyRecord(rel: RawOneToMany): (r: RelationshipSchema)
    ensures r.schemaName == rel.schemaName && r.relationshipType == OneToMany
    ensures r.referencingEntity == rel.referencingEntity && r.referencingAttribute == rel.referencingAttribute
    ensures r.referencedEntity == rel.referencedEntity && r.referencedAttribute == rel.referencedAttribute
    ensures !r.HasManyToManyFields()
    ensures r.isCustomRelationship <==> rel.isCustomRelationship == Some(true)
  {
    NewRelationship().(
      schemaName := rel.schemaName,
      relationshipType := OneToMany,
      referencingEntity := rel.referencingEntity,
      referencingAttribute := rel.referencingAttribute,
      referencedEntity := rel.referencedEntity,
      referencedAttribute := rel.referencedAttribute,
      isCustomRelationship := rel.isCustomRelationship.GetOr(false))
  }

  function ManyToManyRecord(rel: RawManyToMany): (r: RelationshipSchema)
    ensures r.schemaName == rel.schemaName && r.relationshipType == ManyToMany
    ensures r.entity1LogicalName == rel.entity1LogicalName && r.entity2LogicalName == rel.entity2LogicalName
    ensures r.intersectEntityName == rel.intersectEntityName
    ensures !r.HasOneToManyFields()
    ensures r.isCustomRelationship <==> rel.isCustomRelationship == Some(true)
  {
    NewRelationship().(
      schemaName := rel.schemaName,
      relationshipType := ManyToMany,
      entity1LogicalName := rel.entity1LogicalName,
      entity2LogicalName := rel.entity2LogicalName,
      intersectEntityName := rel.intersectEntityName,
      isCustomRelationship := rel.isCustomRelationship.GetOr(false))
  }

  /** A record carries the field group of its tag and nothing of the other. */
  predicate WellTagged(r: RelationshipSchema) {
    || (r.relationshipType == OneToMany && !r.HasManyToManyFields())
    || (r.relationshipType == ManyToMany && !r.HasOneToManyFields())
  }

  function OneToManyRecords(rels: seq<RawOneToMany>): (r: seq<RelationshipSchema>)
    ensures |r| == |rels|
    ensures forall i :: 0 <= i < |rels| ==> r[i] == OneToManyRecord(rels[i])
  {
    seq(|rels|, i requires 0 <= i < |rels| => OneToManyRecord(rels[i]))
  }

  function ManyToManyRecords(rels: seq<RawManyToMany>): (r: seq<RelationshipSchema>)
    ensures |r| == |rels|
    ensures forall i :: 0 <= i < |rels| ==> r[i] == ManyToManyRecord(rels[i])
  {
    seq(|rels|, i requires 0 <= i < |rels| => ManyToManyRecord(rels[i]))
  }

  /** The relationships listed on one entity (SchemaExtractor.cs:146-177): a
      record per entry of its 1:N list, in list order, then a record per entry
      of its N:N list, in list order; a missing list contributes nothing. */
  function EntityRelationships(e: RawEntity): (r: seq<RelationshipSchema>)
    ensures |r| == |e.oneToMany.GetOr([])| + |e.manyToMany.GetOr([])|
    ensures forall i :: 0 <= i < |e.oneToMany.GetOr([])| ==> r[i] == OneToManyRecord(e.oneToMany.GetOr([])[i])
    ensures forall j :: 0 <= j < |e.manyToMany.GetOr([])| ==>
      r[|e.oneToMany.GetOr([])| + j] == ManyToManyRecord(e.manyToMany.GetOr([])[j])
  {
    (if e.oneToMany.Some? then OneToManyRecords(e.oneToMany.value) else [])
    + (if e.manyToMany.Some? then ManyToManyRecords(e.manyToMany.value) else [])
  }

  /** The number of relationships listed on the entities. */
  function RelationshipCount(entities: seq<RawEntity>): nat {
    if |entities| == 0 then 0
    else
      var e := entities[0];
      (if e.oneToMany.Some? then |e.oneToMany.value| else 0)
      + (if e.manyToMany.Some? then |e.manyToMany.value| else 0)
      + RelationshipCount(entities[1..])
  }

  /** Every relationship listed on the entities, entity by entity in the given
      order. */
  function ExtractRelationships(entities: seq<RawEntity>): (r: seq<RelationshipSchema>)
    ensures |r| == RelationshipCount(entities)
    ensures forall x :: x in r ==> WellTagged(x)
    ensures forall x :: x in r <==> exists e :: e in entities && x in EntityRelationships(e)
    decreases |entities|
  {
    if |entities| == 0 then []
    else
      assert forall e :: e in entities <==> e == entities[0] || e in entities[1..];
      EntityRelationships(entities[0]) + ExtractRelationships(entities[1..])
  }

  lemma {:induction false} ExtractRelationshipsOneByOne(entities: seq<RawEntity>)
    ensures ExtractRelationships(entities) == FlatMap(entities, EntityRelationships)
    decreases |entities|
  {
    if |entities| > 0 {
      ExtractRelationshipsOneByOne(entities[1..]);
    }
  }

  /** The relationships of two runs of entities are those of the first run,
      then those of the second: the loop visits entities one at a time and
      appends. */
  lemma ExtractRelationshipsConcat(a: seq<RawEntity>, b: seq<RawEntity>)
    ensures ExtractRelationships(a + b) == ExtractRelationships(a) + ExtractRelationships(b)
  {
    ExtractRelationshipsOneByOne(a + b);
    ExtractRelationshipsOneByOne(a);
    ExtractRelationshipsOneByOne(b);
    FlatMapConcat(a, b, EntityRelationships);
  }

  /** A single entity contributes exactly its own list. */
  lemma ExtractRelationshipsSingle(e: RawEntity)
    ensures ExtractRelationships([e]) == EntityRelationships(e)
  {
    assert [e][1..] == [];
  }

  /** The records of the `k`-th entity are one contiguous block of the output,
      placed after the records of the entities before it. */
  lemma RelationshipBlock(entities: seq<RawEntity>, k: nat)
    requires k < |entities|
    ensures var start := |ExtractRelationships(entities[..k])|;
      && start + |EntityRelationships(entities[k])| <= |ExtractRelationships(entities)|
      && ExtractRelationships(entities)[start..start + |EntityRelationships(entities[k])|]
         == EntityRelationships(entities[k])
  {
    ExtractRelationshipsOneByOne(entities);
    ExtractRelationshipsOneByOne(entities[..k]);
    FlatMapBlock(entities, EntityRelationships, k);
  }

  // ---------------------------------------------------------------------
  // Solution resolution (GetSolutionEntities)

  /** The component query: rows of the solution whose type is "Entity". */
  function EntityComponents(components: seq<ComponentRow>, solutionId: Guid): (r: seq<ComponentRow>)
    ensures forall c :: c in r <==> c in components && c.solutionId == solutionId && c.componentType == EntityComponentType
    decreases |components|
  {
    if |components| == 0 then []
    else
      var rest := EntityComponents(components[1..], solutionId);
      assert forall c :: c in components <==> c == components[0] || c in components[1..];
      var c := components[0];
      if c.solutionId == solutionId && c.componentType == EntityComponentType then [c] + rest else rest
  }

  /** The logical names the per-component metadata lookups return; a failed
      lookup contributes nothing. */
  function CollectEntityNames(components: seq<ComponentRow>, lookup: Guid -> Option<string>): (names: set<string>)
    ensures forall n :: n in names <==> exists c :: c in components && lookup(c.objectId) == Some(n)
    decreases |components|
  {
    if |components| == 0 then {}
    else
      var rest := CollectEntityNames(components[1..], lookup);
      assert forall c :: c in components <==> c == components[0] || c in components[1..];
      match lookup(components[0].objectId)
      case Some(n) => {n} + rest
      case None => rest
  }

  /** The error `GetSolutionEntities` throws for an unknown solution. */
  function NotFound(solutionName: string): string {
    "Solution '" + solutionName + "' not found"
  }

  /** `GetSolutionEntities`: fails when the solution query returns no row;
      otherwise the names of the entity components of the first row's
      solution whose metadata could be retrieved. */
  function GetSolutionEntities(solutionName: string, svc: ServiceSnapshot): (r: Result<set<string>, string>)
    ensures r.Failure? <==> |svc.solutionRows| == 0
    ensures r.Failure? ==> r.error == NotFound(solutionName)
    ensures r.Success? ==> forall n :: n in r.value <==>
      exists c :: && c in svc.components
                  && c.solutionId == svc.solutionRows[0]
                  && c.componentType == EntityComponentType
                  && svc.entityById(c.objectId) == Some(n)
  {
    if |svc.solutionRows| == 0 then Failure(NotFound(solutionName))
    else
      var solutionId := svc.solutionRows[0];
      Success(CollectEntityNames(EntityComponents(svc.components, solutionId), svc.entityById))
  }

  // ---------------------------------------------------------------------
  // The orchestrator (ExtractSchema)

  /** `entities.Where(e => names.Contains(e.LogicalName))`. */
  function SelectEntities(entities: seq<RawEntity>, names: set<string>): (r: seq<RawEntity>)
    ensures |r| <= |entities|
    ensures forall e :: e in r <==> e in entities && e.logicalName in names
    decreases |entities|
  {
    if |entities| == 0 then []
    else
      var rest := SelectEntities(entities[1..], names);
      assert forall e :: e in entities <==> e == entities[0] || e in entities[1..];
      if entities[0].logicalName in names then [entities[0]] + rest else rest
  }

  /** The filter looks at one entity at a time and keeps the order: selecting
      from two runs of entities is selecting from each, one after the other. */
  lemma SelectEntitiesConcat(a: seq<RawEntity>, b: seq<RawEntity>, names: set<string>)
    ensures SelectEntities(a + b, names) == SelectEntities(a, names) + SelectEntities(b, names)
  {
    SelectEntitiesOneByOne(a + b, names);
    SelectEntitiesOneByOne(a, names);
    SelectEntitiesOneByOne(b, names);
    FlatMapConcat(a, b, SelectedOf(names));
  }

  /** One entity's contribution to `SelectEntities`. */
  function SelectedOf(names: set<string>): RawEntity -> seq<RawEntity> {
    (e: RawEntity) => if e.logicalName in names then [e] else []
  }

  lemma {:induction false} SelectEntitiesOneByOne(entities: seq<RawEntity>, names: set<string>)
    ensures SelectEntities(entities, names) == FlatMap(entities, SelectedOf(names))
    decreases |entities|
  {
    if |entities| > 0 {
      SelectEntitiesOneByOne(entities[1..], names);
    }
  }

  /** Records of entities in logical-name order are in logical-name order. */
  lemma ExtractedRecordsSorted(sorted: seq<RawEntity>, prefix: Option<string>, exclude: Option<set<string>>,
                               key: string -> seq<int>)
    requires SortedBy(sorted, RawEntityRank(key))
    ensures SortedBy(ExtractEntities(sorted, prefix, exclude, key), EntityRank(key))
  {
    var records := ExtractEntities(sorted, prefix, exclude, key);
    forall i, j | 0 <= i < j < |records|
      ensures KeyLe(EntityRank(key)(records[i]), EntityRank(key)(records[j]))
    {
      assert KeyLe(RawEntityRank(key)(sorted[i]), RawEntityRank(key)(sorted[j]));
    }
  }

  /** The schema built from an already selected entity sequence. */
  function Assemble(env: Environment, solutionName: Option<string>, components: Option<set<string>>,
                    entities: seq<RawEntity>, prefix: Option<string>, exclude: Option<set<string>>,
                    key: string -> seq<int>): (r: PowerAppsSchema)
    ensures forall x :: x in r.entities <==> exists e :: e in entities && x == ExtractEntity(e, prefix, exclude, key)
    ensures |r.entities| == |entities|
    ensures multiset(r.entities) == multiset(ExtractEntities(entities, prefix, exclude, key))
    ensures SortedBy(r.entities, EntityRank(key))
    ensures r.relationships == ExtractRelationships(entities)
    ensures r.solutionName == solutionName && r.solutionComponents == components
    ensures r.extractedDate == env.now && r.environmentUrl == env.environmentUrl
    ensures r.organizationName == env.organizationName
  {
    var sorted := SortBy(entities, RawEntityRank(key));
    var records := ExtractEntities(sorted, prefix, exclude, key);
    SortMembers(entities, RawEntityRank(key));
    MapPermutation(sorted, entities, ExtractEntityOf(prefix, exclude, key));
    ExtractedRecordsSorted(sorted, prefix, exclude, key);
    PowerAppsSchema(
      extractedDate := env.now,
      environmentUrl := env.environmentUrl,
      organizationName := env.organizationName,
      solutionName := solutionName,
      solutionComponents := components,
      entities := records,
      relationships := ExtractRelationships(entities))
  }

  /** The entities the extraction covers: all of them, or those of the
      resolved solution in their original order. */
  function ScopedEntities(all: seq<RawEntity>, solution: Option<set<string>>): seq<RawEntity> {
    if solution.Some? then SelectEntities(all, solution.value) else all
  }

  /** `ExtractSchema`. A non-blank solution name narrows the entities to the
      solution's (and records the resolved names); an unknown solution fails
      the whole extraction. Entities and their attributes come out in
      ascending logical-name order. Relationships are read from the same
      narrowed entity sequence, in its original order. */
  function ExtractSchema(env: Environment, solutionName: Option<string>, prefix: Option<string>,
                         exclude: Option<set<string>>, svc: ServiceSnapshot,
                         key: string -> seq<int>): (r: Result<PowerAppsSchema, string>)
    ensures IsBlank(solutionName) ==>
      && r.Success?
      && r.value.solutionComponents.None?
      && |r.value.entities| == |svc.allEntities|
      && forall x :: x in r.value.entities <==>
           exists e :: e in svc.allEntities && x == ExtractEntity(e, prefix, exclude, key)
    ensures !IsBlank(solutionName) && |svc.solutionRows| == 0 ==>
      r == Failure(NotFound(solutionName.value))
    ensures !IsBlank(solutionName) && |svc.solutionRows| > 0 ==>
      && r.Success?
      && r.value.solutionComponents == Some(GetSolutionEntities(solutionName.value, svc).value)
      && |r.value.entities| == |SelectEntities(svc.allEntities, r.value.solutionComponents.value)|
      && forall x :: x in r.value.entities <==>
           exists e :: && e in svc.allEntities
                       && e.logicalName in r.value.solutionComponents.value
                       && x == ExtractEntity(e, prefix, exclude, key)
    ensures r.Success? ==> SortedBy(r.value.entities, EntityRank(key))
    ensures r.Success? ==>
      multiset(r.value.entities)
      == multiset(ExtractEntities(ScopedEntities(svc.allEntities, r.value.solutionComponents), prefix, exclude, key))
    ensures r.Success? ==> forall x :: x in r.value.entities ==> SortedBy(x.attributes, AttributeRank(key))
    ensures r.Success? ==> r.value.solutionName == solutionName
    ensures r.Success? ==>
      r.value.relationships == ExtractRelationships(ScopedEntities(svc.allEntities, r.value.solutionComponents))
  {
    if !IsBlank(solutionName) then
      match GetSolutionEntities(solutionName.value, svc)
      case Failure(err) => Failure(err)
      case Success(names) =>
        var entities := SelectEntities(svc.allEntities, names);
        Success(Assemble(env, solutionName, Some(names), entities, prefix, exclude, key))
    else
      Success(Assemble(env, solutionName, None, svc.allEntities, prefix, exclude, key))
  }
}

=== FILE: extractor_props.dfy ===
/** Properties of the extraction pipeline that relate several of its
    operations, or state its behaviour on the cases its callers care about. */
module ExtractorProperties {
  import opened Wrappers
  import opened Text
  import opened Models
  import opened Metadata
  import opened SchemaExtractor

  // ---------------------------------------------------------------------
  // Type-conditional fields, against an independent table

  datatype Field = MaxLengthField | FormatField | MinValueField | MaxValueField
                 | PrecisionField | OptionSetField | TargetsField

  /** Which type-conditional fields each attribute subclass defines. */
  function DefinedFields(v: AttributeVariant): set<Field> {
    match v
    case StringAttribute(_, _) => {MaxLengthField, FormatField}
    case IntegerAttribute(_, _) => {MinValueField, MaxValueField}
    case DecimalAttribute(_, _, _) => {MinValueField, MaxValueField, PrecisionField}
    case DoubleAttribute(_, _) => {MinValueField, MaxValueField}
    case MoneyAttribute(_, _, _) => {MinValueField, MaxValueField, PrecisionField}
    case DateTimeAttribute(_) => {FormatField}
    case LookupAttribute(_) => {TargetsField}
    case PicklistAttribute(_) => {OptionSetField}
    case StateAttribute(_) => {OptionSetField}
    case StatusAttribute(_) => {OptionSetField}
    case OtherAttribute => {}
  }

  /** The source value behind a defined field is non-null. */
  predicate SourceHasValue(v: AttributeVariant, f: Field)
    requires f in DefinedFields(v)
  {
    match v
    case StringAttribute(maxLength, fmt) => if f == MaxLengthField then maxLength.Some? else fmt.Some?
    case IntegerAttribute(lo, hi) => if f == MinValueField then lo.Some? else hi.Some?
    case DecimalAttribute(lo, hi, p) => if f == MinValueField then lo.Some? else if f == MaxValueField then hi.Some? else p.Some?
    case DoubleAttribute(lo, hi) => if f == MinValueField then lo.Some? else hi.Some?
    case MoneyAttribute(lo, hi, p) => if f == MinValueField then lo.Some? else if f == MaxValueField then hi.Some? else p.Some?
    case DateTimeAttribute(fmt) => fmt.Some?
    case LookupAttribute(targets) => targets.Some?
    case PicklistAttribute(os) => os.Some?
    case StateAttribute(os) => os.Some?
    case StatusAttribute(os) => os.Some?
  }

  predicate Present(r: AttributeSchema, f: Field) {
    match f
    case MaxLengthField => r.maxLength.Some?
    case FormatField => r.format.Some?
    case MinValueField => r.minValue.Some?
    case MaxValueField => r.maxValue.Some?
    case PrecisionField => r.precision.Some?
    case OptionSetField => r.optionSet.Some?
    case TargetsField => r.targets.Some?
  }

  /** A normalised attribute carries a type-conditional field exactly when its
      subclass defines the field and the subclass's value is non-null; an
      unrecognised subclass carries none, never a zero. */
  lemma TypeConditionalFields(a: RawAttribute)
    ensures forall f :: Present(NormalizeAttribute(a), f) <==>
      f in DefinedFields(a.variant) && SourceHasValue(a.variant, f)
  {
    var r := NormalizeAttribute(a);
    forall f ensures Present(r, f) <==> f in DefinedFields(a.variant) && SourceHasValue(a.variant, f) {
      match f
      case MaxLengthField =>
      case FormatField =>
      case MinValueField =>
      case MaxValueField =>
      case PrecisionField =>
      case OptionSetField =>
      case TargetsField =>
    }
  }

  /** A zero bound is kept as zero: present, not confused with absence. */
  lemma ZeroBoundIsPresent(a: RawAttribute)
    requires a.variant == IntegerAttribute(Some(0), None)
    ensures NormalizeAttribute(a).minValue == Some(0.0)
    ensures NormalizeAttribute(a).maxValue.None?
  {
  }

  // ---------------------------------------------------------------------
  // Option sets

  /** The three enumeration subclasses give the same record for the same
      option data, except that state and status are never global. */
  lemma OptionSetVariantAgnostic(a: RawAttribute, os: RawOptionSet)
    ensures
      var p := ExtractOptionSet(a.(variant := PicklistAttribute(Some(os))));
      && p.Some?
      && (p.value.isGlobal <==> os.isGlobal == Some(true))
      && ExtractOptionSet(a.(variant := StateAttribute(Some(os)))) == Some(p.value.(isGlobal := false))
      && ExtractOptionSet(a.(variant := StatusAttribute(Some(os)))) == Some(p.value.(isGlobal := false))
  {
  }

  /** The extractor keeps the source order of the options; it does not sort
      them by value. */
  lemma OptionsKeepSourceOrder(a: RawAttribute)
    requires a.variant == PicklistAttribute(Some(RawOptionSet(None, None, [RawOption(Some(2), None), RawOption(None, Some("x"))])))
    ensures ExtractOptionSet(a) == Some(OptionSetSchema(None, false, [OptionSchema(2, None), OptionSchema(0, Some("x"))]))
  {
    var options := ExtractOptionSet(a).value.options;
    assert |options| == 2;
    assert options[0] == OptionSchema(2, None) && options[1] == OptionSchema(0, Some("x"));
    assert options == [OptionSchema(2, None), OptionSchema(0, Some("x"))];
  }

  // ---------------------------------------------------------------------
  // Attribute filters

  /** Prefix `new_` with exclusion `{new_legacyfield}` keeps only `new_name`
      of `new_name`, `new_legacyfield`, `other_field`; the prefix match
      ignores case. */
  lemma AttributeFilterExample()
    ensures KeepAttribute("new_name", Some("new_"), Some({"new_legacyfield"}))
    ensures !KeepAttribute("new_legacyfield", Some("new_"), Some({"new_legacyfield"}))
    ensures !KeepAttribute("other_field", Some("new_"), Some({"new_legacyfield"}))
    ensures KeepAttribute("NEW_Name", Some("new_"), Some({"new_legacyfield"}))
  {
    assert !IsBlank(Some("new_")) by {
      assert !IsWhiteSpace("new_"[0]);
    }
    assert "other_field"[0] == 'o';
  }

  /** Without a prefix and an exclusion set, every attribute is kept. */
  lemma NoFiltersKeepAll(name: string, prefix: Option<string>)
    requires IsBlank(prefix)
    ensures KeepAttribute(name, prefix, None)
  {
  }

  // ---------------------------------------------------------------------
  // Solution resolution

  /** A component whose metadata lookup fails is skipped; resolution still
      succeeds with the names the other lookups return. */
  lemma FailedLookupIsSkipped(svc: ServiceSnapshot, n1: string, n3: string)
    requires svc.solutionRows == [7]
    requires svc.components == [ComponentRow(7, 1, 1), ComponentRow(7, 1, 2), ComponentRow(7, 1, 3)]
    requires svc.entityById(1) == Some(n1) && svc.entityById(2).None? && svc.entityById(3) == Some(n3)
    ensures GetSolutionEntities("sales", svc) == Success({n1, n3})
  {
    var r := GetSolutionEntities("sales", svc);
    assert r.Success?;
    forall n ensures n in r.value <==> n == n1 || n == n3 {
      ResolvedFromThree(svc, n1, n3, n);
    }
    ExactlyTwo(r.value, n1, n3);
  }

  /** Of the three rows, the first and third name an entity and the second
      does not. */
  lemma ResolvedFromThree(svc: ServiceSnapshot, n1: string, n3: string, n: string)
    requires svc.solutionRows == [7]
    requires svc.components == [ComponentRow(7, 1, 1), ComponentRow(7, 1, 2), ComponentRow(7, 1, 3)]
    requires svc.entityById(1) == Some(n1) && svc.entityById(2).None? && svc.entityById(3) == Some(n3)
    ensures (exists c :: && c in svc.components
                         && c.solutionId == svc.solutionRows[0]
                         && c.componentType == EntityComponentType
                         && svc.entityById(c.objectId) == Some(n))
        <==> n == n1 || n == n3
  {
    var c1, c2, c3 := svc.components[0], svc.components[1], svc.components[2];
    if n == n1 {
      assert c1 in svc.components;
    } else if n == n3 {
      assert c3 in svc.components;
    } else {
      forall c | c in svc.components ensures svc.entityById(c.objectId) != Some(n) {
        assert c == c1 || c == c2 || c == c3;
      }
    }
  }

  lemma ExactlyTwo<T>(s: set<T>, a: T, b: T)
    requires a in s && b in s
    requires forall x :: x in s ==> x == a || x == b
    ensures s == {a, b}
  {
  }

  /** Only the first row of the solution query matters. */
  lemma FirstSolutionRowDecides(name: string, svc: ServiceSnapshot, extra: seq<Guid>)
    requires |svc.solutionRows| > 0
    ensures GetSolutionEntities(name, svc.(solutionRows := svc.solutionRows[..1] + extra))
         == GetSolutionEntities(name, svc)
  {
  }

  // ---------------------------------------------------------------------
  // The solution filter and relationships

  /** A blank (whitespace-only) solution name applies no filter, records no
      components, and is still kept as the schema's solution name. */
  lemma BlankSolutionNameIsNoFilter(env: Environment, svc: ServiceSnapshot, key: string -> seq<int>)
    ensures
      var r := ExtractSchema(env, Some(" \t"), None, None, svc, key);
      && r.Success?
      && r.value.solutionName == Some(" \t")
      && r.value.solutionComponents.None?
      && r.value.relationships == ExtractRelationships(svc.allEntities)
  {
    assert IsBlank(Some(" \t"));
  }

  /** The attribute filters never change the relationships. */
  lemma RelationshipsIgnoreAttributeFilters(env: Environment, solutionName: Option<string>, svc: ServiceSnapshot,
                                            key: string -> seq<int>,
                                            p1: Option<string>, x1: Option<set<string>>,
                                            p2: Option<string>, x2: Option<set<string>>)
    requires ExtractSchema(env, solutionName, p1, x1, svc, key).Success?
    ensures ExtractSchema(env, solutionName, p2, x2, svc, key).Success?
    ensures ExtractSchema(env, solutionName, p1, x1, svc, key).value.relationships
         == ExtractSchema(env, solutionName, p2, x2, svc, key).value.relationships
  {
  }

  /** Under a solution filter, relationships are read only from the solution's
      entities: each one is listed on an entity of the solution, and every
      relationship listed on such an entity appears, whatever entity it refers
      to. */
  lemma RelationshipsFollowSolutionFilter(env: Environment, name: string, prefix: Option<string>,
                                          exclude: Option<set<string>>, svc: ServiceSnapshot,
                                          key: string -> seq<int>)
    requires !IsBlank(Some(name)) && |svc.solutionRows| > 0
    ensures
      var r := ExtractSchema(env, Some(name), prefix, exclude, svc, key);
      var names := GetSolutionEntities(name, svc).value;
      && r.Success?
      && (forall x :: x in r.value.relationships ==>
            exists e :: e in svc.allEntities && e.logicalName in names && x in EntityRelationships(e))
      && (forall e, x :: e in svc.allEntities && e.logicalName in names && x in EntityRelationships(e) ==>
            x in r.value.relationships)
  {
  }

  /** A many-to-many relationship listed on both of its entities is recorded
      twice: the extractor does not de-duplicate by schema name. */
  lemma ManyToManyOnBothEndsIsRecordedTwice(a: RawEntity, b: RawEntity, m: RawManyToMany)
    requires a.oneToMany.None? && b.oneToMany.None?
    requires a.manyToMany == Some([m]) && b.manyToMany == Some([m])
    ensures ExtractRelationships([a, b]) == [ManyToManyRecord(m), ManyToManyRecord(m)]
  {
    assert [a, b][1..] == [b];
  }
}

=== FILE: metadata.dfy ===
/** The Dataverse SDK metadata the extractor reads (Microsoft.Xrm.Sdk.Metadata),
    reduced to the properties it touches. Every nullable SDK property is an
    `Option`. Localised labels (`X?.UserLocalizedLabel?.Label`) and the
    `ToString()` of SDK enumerations are opaque optional strings. */
module Metadata {
  import opened Wrappers

  /** A `Guid`, compared only for equality. */
  type Guid = nat

  datatype RawOption = RawOption(value: Option<int>, labelText: Option<string>)

  /** `OptionSetMetadata`. */
  datatype RawOptionSet = RawOptionSet(
    name: Option<string>,
    isGlobal: Option<bool>,
    options: seq<RawOption>)

  /** The concrete subclass of `AttributeMetadata`, with the properties of that
      subclass the extractor reads. The subclasses are mutually exclusive;
      `OtherAttribute` stands for every subclass the extractor does not
      special-case (memo, boolean, big integer, multi-select picklist, ...). */
  datatype AttributeVariant =
    | StringAttribute(maxLength: Option<int>, stringFormat: Option<string>)
    | IntegerAttribute(intMin: Option<int>, intMax: Option<int>)
    | DecimalAttribute(decMin: Option<real>, decMax: Option<real>, decPrecision: Option<int>)
    | DoubleAttribute(dblMin: Option<real>, dblMax: Option<real>)
    | MoneyAttribute(moneyMin: Option<real>, moneyMax: Option<real>, moneyPrecision: Option<int>)
    | DateTimeAttribute(dateFormat: Option<string>)
    | LookupAttribute(targets: Option<seq<string>>)
    | PicklistAttribute(picklistOptions: Option<RawOptionSet>)
    | StateAttribute(stateOptions: Option<RawOptionSet>)
    | StatusAttribute(statusOptions: Option<RawOptionSet>)
    | OtherAttribute

  /** `AttributeMetadata`. */
  datatype RawAttribute = RawAttribute(
    logicalName: string,
    schemaName: string,
    displayName: Option<string>,
    description: Option<string>,
    attributeType: Option<string>,
    isCustomAttribute: Option<bool>,
    isPrimaryId: Option<bool>,
    isPrimaryName: Option<bool>,
    isValidForCreate: Option<bool>,
    isValidForUpdate: Option<bool>,
    isValidForRead: Option<bool>,
    requiredLevel: Option<string>,
    variant: AttributeVariant)

  /** `OneToManyRelationshipMetadata`. */
  datatype RawOneToMany = RawOneToMany(
    schemaName: string,
    referencingEntity: Option<string>,
    referencingAttribute: Option<string>,
    referencedEntity: Option<string>,
    referencedAttribute: Option<string>,
    isCustomRelationship: Option<bool>)

  /** `ManyToManyRelationshipMetadata`. */
  datatype RawManyToMany = RawManyToMany(
    schemaName: string,
    entity1LogicalName: Option<string>,
    entity2LogicalName: Option<string>,
    intersectEntityName: Option<string>,
    isCustomRelationship: Option<bool>)

  /** `EntityMetadata`. */
  datatype RawEntity = RawEntity(
    logicalName: string,
    schemaName: string,
    displayName: Option<string>,
    description: Option<string>,
    primaryIdAttribute: Option<string>,
    primaryNameAttribute: Option<string>,
    entitySetName: Option<string>,
    isCustomEntity: Option<bool>,
    isActivity: Option<bool>,
    ownershipType: Option<string>,
    attributes: Option<seq<RawAttribute>>,
    oneToMany: Option<seq<RawOneToMany>>,
    manyToMany: Option<seq<RawManyToMany>>)

  /** A row of the `solutioncomponent` table. */
  datatype ComponentRow = ComponentRow(solutionId: Guid, componentType: int, objectId: Guid)

  /** What the remote organisation service would answer, given as data:
      the entity universe (`RetrieveAllEntitiesRequest`), the ids of the rows the
      `solution` query by unique name returns, the `solutioncomponent` table, and
      the per-entity metadata lookup (`RetrieveEntityRequest`), whose failure is
      `None`. */
  datatype ServiceSnapshot = ServiceSnapshot(
    allEntities: seq<RawEntity>,
    solutionRows: seq<Guid>,
    components: seq<ComponentRow>,
    entityById: Guid -> Option<string>)

  /** The sort key of a raw entity: its logical name's, under the culture
      sort-key function `key`. */
  function RawEntityRank(key: string -> seq<int>): RawEntity -> seq<int> {
    (e: RawEntity) => key(e.logicalName)
  }

  function RawAttributeRank(key: string -> seq<int>): RawAttribute -> seq<int> {
    (a: RawAttribute) => key(a.logicalName)
  }
}

=== FILE: models.dfy ===
/** The normalised schema document (Models.cs). Every nullable property of the
    C# classes is an `Option`, so "absent" never collapses into zero, `false`
    or the empty list. */
module Models {
  import opened Wrappers
  import opened Ordering

  /** `DateTime` of the extraction; its calendar value is not modelled. */
  type Instant = int

  /** One enumeration option: a mandatory value and an optional label (`Label`). */
  datatype OptionSchema = OptionSchema(value: int, labelText: Option<string>)

  datatype OptionSetSchema = OptionSetSchema(
    name: Option<string>,
    isGlobal: bool,
    options: seq<OptionSchema>)

  datatype AttributeSchema = AttributeSchema(
    logicalName: string,
    schemaName: string,
    displayName: Option<string>,
    description: Option<string>,
    attributeType: Option<string>,
    isCustomAttribute: bool,
    isPrimaryId: bool,
    isPrimaryName: bool,
    isValidForCreate: bool,
    isValidForUpdate: bool,
    isValidForRead: bool,
    requiredLevel: Option<string>,
    // type-conditional fields, present only for the variants that define them
    maxLength: Option<int>,
    format: Option<string>,
    minValue: Option<real>,
    maxValue: Option<real>,
    precision: Option<int>,
    optionSet: Option<OptionSetSchema>,
    targets: Option<seq<string>>)

  datatype EntitySchema = EntitySchema(
    logicalName: string,
    schemaName: string,
    displayName: Option<string>,
    description: Option<string>,
    primaryIdAttribute: Option<string>,
    primaryNameAttribute: Option<string>,
    entitySetName: Option<string>,
    isCustomEntity: bool,
    isActivity: bool,
    ownershipType: Option<string>,
    attributes: seq<AttributeSchema>)

  /** A relationship record. The one-to-many group (referencing/referenced
      entity and attribute) and the many-to-many group (the two entities and the
      intersect entity) are separate sets of optional fields. */
  datatype RelationshipSchema = RelationshipSchema(
    schemaName: string,
    relationshipType: string,
    referencingEntity: Option<string>,
    referencingAttribute: Option<string>,
    referencedEntity: Option<string>,
    referencedAttribute: Option<string>,
    entity1LogicalName: Option<string>,
    entity2LogicalName: Option<string>,
    intersectEntityName: Option<string>,
    isCustomRelationship: bool)
  {
    predicate HasOneToManyFields() {
      referencingEntity.Some? || referencingAttribute.Some? || referencedEntity.Some? || referencedAttribute.Some?
    }

    predicate HasManyToManyFields() {
      entity1LogicalName.Some? || entity2LogicalName.Some? || intersectEntityName.Some?
    }
  }

  /** The root document. `solutionComponents` is the resolved set of entity
      logical names, present only when a solution filter was applied. */
  datatype PowerAppsSchema = PowerAppsSchema(
    extractedDate: Instant,
    environmentUrl: string,
    organizationName: string,
    solutionName: Option<string>,
    solutionComponents: Option<set<string>>,
    entities: seq<EntitySchema>,
    relationships: seq<RelationshipSchema>)

  const OneToMany: string := "OneToMany"
  const ManyToMany: string := "ManyToMany"

  /** `new PowerAppsSchema()`. */
  function NewSchema(): (s: PowerAppsSchema)
    ensures s.entities == [] && s.relationships == []
    ensures s.solutionName.None? && s.solutionComponents.None?
    ensures s.environmentUrl == "" && s.organizationName == ""
  {
    PowerAppsSchema(0, "", "", None, None, [], [])
  }

  /** `new EntitySchema()`. */
  function NewEntity(): (e: EntitySchema)
    ensures e.attributes == []
    ensures e.logicalName == "" && e.schemaName == ""
    ensures !e.isCustomEntity && !e.isActivity
    ensures e.displayName.None? && e.description.None? && e.ownershipType.None?
    ensures e.primaryIdAttribute.None? && e.primaryNameAttribute.None? && e.entitySetName.None?
  {
    EntitySchema("", "", None, None, None, None, None, false, false, None, [])
  }

  /** `new OptionSetSchema()`. */
  function NewOptionSet(): (o: OptionSetSchema)
    ensures !o.isGlobal && o.options == [] && o.name.None?
  {
    OptionSetSchema(None, false, [])
  }

  /** `new RelationshipSchema()`. */
  function NewRelationship(): (r: RelationshipSchema)
    ensures !r.isCustomRelationship
    ensures !r.HasOneToManyFields() && !r.HasManyToManyFields()
    ensures r.schemaName == "" && r.relationshipType == ""
  {
    RelationshipSchema("", "", None, None, None, None, None, None, None, false)
  }

  /** The sort key of an entity record: its logical name's, under the culture
      sort-key function `key`. */
  function EntityRank(key: string -> seq<int>): EntitySchema -> seq<int> {
    (e: EntitySchema) => key(e.logicalName)
  }

  function AttributeRank(key: string -> seq<int>): AttributeSchema -> seq<int> {
    (a: AttributeSchema) => key(a.logicalName)
  }

  /** Options order by their integer value. */
  function OptionRank(): OptionSchema -> seq<int> {
    (o: OptionSchema) => [o.value]
  }

  function AttributeCountOf(): EntitySchema -> nat {
    (e: EntitySchema) => |e.attributes|
  }

  /** `schema.Entities.Sum(e => e.Attributes.Count)`. */
  function TotalAttributes(entities: seq<EntitySchema>): nat {
    Sum(entities, AttributeCountOf())
  }

  /** An entity record with its attributes in logical-name order. */
  function SortAttributes(key: string -> seq<int>): EntitySchema -> EntitySchema {
    (e: EntitySchema) => e.(attributes := SortBy(e.attributes, AttributeRank(key)))
  }

  /** The entities in logical-name order, each with its attributes in
      logical-name order: the order in which both exports list them. */
  function InKeyOrder(entities: seq<EntitySchema>, key: string -> seq<int>): (r: seq<EntitySchema>)
    ensures |r| == |entities|
    ensures SortedBy(r, EntityRank(key))
    ensures forall i :: 0 <= i < |r| ==> SortedBy(r[i].attributes, AttributeRank(key))
    ensures forall i :: 0 <= i < |r| ==>
      r[i] == SortBy(entities, EntityRank(key))[i].(attributes := r[i].attributes)
    ensures forall i :: 0 <= i < |r| ==>
      multiset(r[i].attributes) == multiset(SortBy(entities, EntityRank(key))[i].attributes)
  {
    var sorted := SortBy(entities, EntityRank(key));
    var r := Map(sorted, SortAttributes(key));
    forall i, j | 0 <= i < j < |r|
      ensures KeyLe(EntityRank(key)(r[i]), EntityRank(key)(r[j]))
    {
      assert KeyLe(EntityRank(key)(sorted[i]), EntityRank(key)(sorted[j]));
    }
    r
  }
}

=== FILE: ordering.dfy ===
/** Deterministic ordering, as LINQ's `OrderBy` provides it.

    `OrderBy(e => e.LogicalName)` compares strings with the current culture's
    comparer. A culture comparer orders strings exactly as it orders their
    sort keys (`CompareInfo.GetSortKey`), compared lexicographically; the model
    therefore takes the culture's sort-key function as an opaque parameter and
    orders by it. `OrderBy(o => o.Value)` on integers is the special case whose
    key is the one-element sequence `[value]`. `OrderBy` is a stable sort. */
module Ordering {

  /** Lexicographic order on sort keys; a proper prefix sorts first. */
  predicate KeyLe(a: seq<int>, b: seq<int>)
    decreases |a|
  {
    |a| == 0 || (|b| > 0 && (a[0] < b[0] || (a[0] == b[0] && KeyLe(a[1..], b[1..]))))
  }

  lemma {:induction false} KeyLeReflexive(a: seq<int>)
    ensures KeyLe(a, a)
    decreases |a|
  {
    if |a| > 0 {
      KeyLeReflexive(a[1..]);
    }
  }

  lemma {:induction false} KeyLeTotal(a: seq<int>, b: seq<int>)
    ensures KeyLe(a, b) || KeyLe(b, a)
    decreases |a|
  {
    if |a| > 0 && |b| > 0 && a[0] == b[0] {
      KeyLeTotal(a[1..], b[1..]);
    }
  }

  lemma {:induction false} KeyLeAntisymmetric(a: seq<int>, b: seq<int>)
    requires KeyLe(a, b) && KeyLe(b, a)
    ensures a == b
    decreases |a|
  {
    if |a| > 0 {
      KeyLeAntisymmetric(a[1..], b[1..]);
      assert a == [a[0]] + a[1..];
      assert b == [b[0]] + b[1..];
    }
  }

  lemma {:induction false} KeyLeTransitive(a: seq<int>, b: seq<int>, c: seq<int>)
    requires KeyLe(a, b) && KeyLe(b, c)
    ensures KeyLe(a, c)
    decreases |a|
  {
    if |a| > 0 && a[0] == b[0] && b[0] == c[0] {
      KeyLeTransitive(a[1..], b[1..], c[1..]);
    }
  }

  /** Integer order is the key order of one-element keys. */
  lemma SingletonKeyLe(x: int, y: int)
    ensures KeyLe([x], [y]) <==> x <= y
  {
    assert [x][1..] == [];
  }

  /** Every element's key is at most every later element's key. */
  ghost predicate SortedBy<T>(s: seq<T>, rank: T -> seq<int>) {
    forall i, j :: 0 <= i < j < |s| ==> KeyLe(rank(s[i]), rank(s[j]))
  }

  lemma SortedTail<T>(s: seq<T>, rank: T -> seq<int>)
    requires |s| > 0 && SortedBy(s, rank)
    ensures SortedBy(s[1..], rank)
  {
    forall i, j | 0 <= i < j < |s| - 1
      ensures KeyLe(rank(s[1..][i]), rank(s[1..][j]))
    {
      assert s[1..][i] == s[i + 1] && s[1..][j] == s[j + 1];
    }
  }

  /** An element ranked no higher than any element of a sorted sequence may
      go in front of it. */
  lemma SortedCons<T>(x: T, s: seq<T>, rank: T -> seq<int>)
    requires SortedBy(s, rank)
    requires forall i :: 0 <= i < |s| ==> KeyLe(rank(x), rank(s[i]))
    ensures SortedBy([x] + s, rank)
  {
    var r := [x] + s;
    forall i, j | 0 <= i < j < |r|
      ensures KeyLe(rank(r[i]), rank(r[j]))
    {
      assert r[j] == s[j - 1];
      if i > 0 {
        assert r[i] == s[i - 1];
      }
    }
  }

  /** Inserts `x` in front of the first element it does not sort after, so
      that it lands before every element with the same key. */
  function Insert<T>(x: T, s: seq<T>, rank: T -> seq<int>): (r: seq<T>)
    requires SortedBy(s, rank)
    ensures SortedBy(r, rank)
    ensures multiset(r) == multiset(s) + multiset{x}
    ensures |r| == |s| + 1
    decreases |s|
  {
    if |s| == 0 then [x]
    else if KeyLe(rank(x), rank(s[0])) then
      InsertFrontSorted(x, s, rank);
      [x] + s
    else
      KeyLeTotal(rank(x), rank(s[0]));
      var t := Insert(x, s[1..], rank);
      assert s == [s[0]] + s[1..];
      HeadBelowAll(s[0], t, x, s[1..], rank);
      [s[0]] + t
  }

  lemma InsertFrontSorted<T>(x: T, s: seq<T>, rank: T -> seq<int>)
    requires SortedBy(s, rank) && |s| > 0 && KeyLe(rank(x), rank(s[0]))
    ensures SortedBy([x] + s, rank)
  {
    var r := [x] + s;
    forall i, j | 0 <= i < j < |r|
      ensures KeyLe(rank(r[i]), rank(r[j]))
    {
      if i == 0 {
        if j > 1 {
          KeyLeTransitive(rank(x), rank(s[0]), rank(s[j - 1]));
        }
      }
    }
  }

  lemma HeadBelowAll<T>(h: T, t: seq<T>, x: T, rest: seq<T>, rank: T -> seq<int>)
    requires SortedBy([h] + rest, rank)
    requires SortedBy(t, rank)
    requires multiset(t) == multiset(rest) + multiset{x}
    requires KeyLe(rank(h), rank(x))
    ensures SortedBy([h] + t, rank)
  {
    var r := [h] + t;
    forall i, j | 0 <= i < j < |r|
      ensures KeyLe(rank(r[i]), rank(r[j]))
    {
      if i == 0 {
        var y := t[j - 1];
        assert y in multiset(t);
        if y != x {
          assert y in multiset(rest);
          assert y in rest;
          var k :| 0 <= k < |rest| && rest[k] == y;
          assert ([h] + rest)[0] == h && ([h] + rest)[k + 1] == y;
        }
      } else {
        assert r[i] == t[i - 1] && r[j] == t[j - 1];
      }
    }
  }

  /** A stable sort by key (`OrderBy`). */
  function SortBy<T>(s: seq<T>, rank: T -> seq<int>): (r: seq<T>)
    ensures SortedBy(r, rank)
    ensures multiset(r) == multiset(s)
    ensures |r| == |s|
    decreases |s|
  {
    if |s| == 0 then []
    else
      assert s == [s[0]] + s[1..];
      Insert(s[0], SortBy(s[1..], rank), rank)
  }

  /** The elements of `s` whose key is `k`, in their order in `s`. */
  function WithKey<T>(s: seq<T>, rank: T -> seq<int>, k: seq<int>): (r: seq<T>)
    ensures |r| <= |s|
    decreases |s|
  {
    if |s| == 0 then []
    else (if rank(s[0]) == k then [s[0]] else []) + WithKey(s[1..], rank, k)
  }

  /** When `x` ranks above the head, inserting it keeps the head in front. */
  lemma InsertPastHead<T>(x: T, s: seq<T>, rank: T -> seq<int>)
    requires SortedBy(s, rank) && |s| > 0 && !KeyLe(rank(x), rank(s[0]))
    ensures SortedBy(s[1..], rank)
    ensures Insert(x, s, rank) == [s[0]] + Insert(x, s[1..], rank)
  {
    SortedTail(s, rank);
  }

  lemma WithKeyCons<T>(h: T, t: seq<T>, rank: T -> seq<int>, k: seq<int>)
    ensures WithKey([h] + t, rank, k) == (if rank(h) == k then [h] else []) + WithKey(t, rank, k)
  {
    assert ([h] + t)[1..] == t;
  }

  lemma SwapPastEmpty<T>(a: seq<T>, b: seq<T>, c: seq<T>)
    requires a == [] || b == []
    ensures a + (b + c) == b + (a + c)
  {
    if a == [] {
      assert a + (b + c) == b + c == b + (a + c);
    } else {
      assert a + (b + c) == a + c == b + (a + c);
    }
  }

  lemma {:induction false} InsertWithKey<T>(x: T, s: seq<T>, rank: T -> seq<int>, k: seq<int>)
    requires SortedBy(s, rank)
    ensures WithKey(Insert(x, s, rank), rank, k)
         == (if rank(x) == k then [x] else []) + WithKey(s, rank, k)
    decreases |s|
  {
    if |s| == 0 {
    } else if KeyLe(rank(x), rank(s[0])) {
      WithKeyCons(x, s, rank, k);
    } else {
      if rank(s[0]) == rank(x) {
        KeyLeReflexive(rank(x));
      }
      InsertPastHead(x, s, rank);
      var t := Insert(x, s[1..], rank);
      InsertWithKey(x, s[1..], rank, k);
      WithKeyCons(s[0], t, rank, k);
      var head := if rank(s[0]) == k then [s[0]] else [];
      var mine := if rank(x) == k then [x] else [];
      var rest := WithKey(s[1..], rank, k);
      calc {
        WithKey(Insert(x, s, rank), rank, k);
        head + (mine + rest);
        { SwapPastEmpty(head, mine, rest); }
        mine + (head + rest);
        mine + WithKey(s, rank, k);
      }
    }
  }

  /** Stability: sorting keeps the relative order of elements with equal keys. */
  lemma {:induction false} SortStable<T>(s: seq<T>, rank: T -> seq<int>, k: seq<int>)
    ensures WithKey(SortBy(s, rank), rank, k) == WithKey(s, rank, k)
    decreases |s|
  {
    if |s| > 0 {
      SortStable(s[1..], rank, k);
      InsertWithKey(s[0], SortBy(s[1..], rank), rank, k);
    }
  }

  /** Sorting an already sorted sequence changes nothing, so sorting twice is
      sorting once. */
  lemma {:induction false} SortSorted<T>(s: seq<T>, rank: T -> seq<int>)
    requires SortedBy(s, rank)
    ensures SortBy(s, rank) == s
    decreases |s|
  {
    if |s| > 0 {
      SortedTail(s, rank);
      SortSorted(s[1..], rank);
      if |s| > 1 {
        assert KeyLe(rank(s[0]), rank(s[1]));
      }
      assert s == [s[0]] + s[1..];
    }
  }

  /** Sorting keeps exactly the elements it is given. */
  lemma SortMembers<T>(s: seq<T>, rank: T -> seq<int>)
    ensures forall x :: x in SortBy(s, rank) <==> x in s
  {
    forall x ensures x in SortBy(s, rank) <==> x in s {
      assert x in SortBy(s, rank) <==> x in multiset(SortBy(s, rank));
      assert x in s <==> x in multiset(s);
    }
  }

  lemma SortIdempotent<T>(s: seq<T>, rank: T -> seq<int>)
    ensures SortBy(SortBy(s, rank), rank) == SortBy(s, rank)
  {
    SortSorted(SortBy(s, rank), rank);
  }

  /** The total of `f` over the elements of `s` (LINQ's `Sum`). */
  function Sum<T>(s: seq<T>, f: T -> nat): nat
    decreases |s|
  {
    if |s| == 0 then 0 else f(s[0]) + Sum(s[1..], f)
  }

  lemma {:induction false} SumConcat<T>(a: seq<T>, b: seq<T>, f: T -> nat)
    ensures Sum(a + b, f) == Sum(a, f) + Sum(b, f)
    decreases |a|
  {
    if |a| == 0 {
      assert a + b == b;
    } else {
      assert (a + b)[0] == a[0] && (a + b)[1..] == a[1..] + b;
      SumConcat(a[1..], b, f);
    }
  }

  /** A total does not depend on the order of its terms; in particular a
      total over a sorted copy equals the total over the original. */
  lemma {:induction false} SumPermutation<T>(s: seq<T>, t: seq<T>, f: T -> nat)
    requires multiset(s) == multiset(t)
    ensures Sum(s, f) == Sum(t, f)
    decreases |s|
  {
    if |s| == 0 {
      assert |t| == |multiset(t)| == 0;
    } else {
      var x := s[0];
      assert x in multiset(t);
      var k :| 0 <= k < |t| && t[k] == x;
      var rest := t[..k] + t[k + 1..];
      assert t == t[..k] + ([x] + t[k + 1..]);
      assert s == [x] + s[1..];
      assert multiset(rest) == multiset(t) - multiset{x};
      SumPermutation(s[1..], rest, f);
      SumConcat(t[..k], [x] + t[k + 1..], f);
      SumConcat([x], t[k + 1..], f);
      SumConcat(t[..k], t[k + 1..], f);
    }
  }

  // ---------------------------------------------------------------------
  // Projections (LINQ's `Select` and `SelectMany`)

  /** `f` applied to every element, in order. */
  function Map<T, U>(s: seq<T>, f: T -> U): (r: seq<U>)
    ensures |r| == |s|
    ensures forall i :: 0 <= i < |s| ==> r[i] == f(s[i])
  {
    seq(|s|, i requires 0 <= i < |s| => f(s[i]))
  }

  lemma MapConcat<T, U>(a: seq<T>, b: seq<T>, f: T -> U)
    ensures Map(a + b, f) == Map(a, f) + Map(b, f)
  {
  }

  /** Every element's image is in the projection. */
  lemma MapMembers<T, U>(s: seq<T>, f: T -> U)
    ensures forall x :: x in s ==> f(x) in Map(s, f)
  {
    forall x | x in s ensures f(x) in Map(s, f) {
      var i :| 0 <= i < |s| && s[i] == x;
      assert Map(s, f)[i] == f(x);
    }
  }

  /** Projecting a reordering of `t` gives a reordering of `t`'s projection:
      every image comes from some element and every element has its image. */
  lemma MapReorder<T, U>(s: seq<T>, t: seq<T>, f: T -> U)
    requires multiset(s) == multiset(t)
    ensures forall y :: y in Map(s, f) ==> exists x :: x in t && y == f(x)
    ensures forall x :: x in t ==> f(x) in Map(s, f)
    ensures multiset(Map(s, f)) == multiset(Map(t, f))
  {
    forall y | y in Map(s, f) ensures exists x :: x in t && y == f(x) {
      var i :| 0 <= i < |s| && Map(s, f)[i] == y;
      assert s[i] in multiset(t);
    }
    forall x | x in t ensures x in s {
      assert x in multiset(s);
    }
    MapMembers(s, f);
    MapPermutation(s, t, f);
  }

  /** Projecting a reordering gives a reordering of the projection: one
      output per input, whatever the order. */
  lemma {:induction false} MapPermutation<T, U>(s: seq<T>, t: seq<T>, f: T -> U)
    requires multiset(s) == multiset(t)
    ensures multiset(Map(s, f)) == multiset(Map(t, f))
    decreases |s|
  {
    if |s| == 0 {
      assert |t| == |multiset(t)| == 0;
    } else {
      var x := s[0];
      assert x in multiset(t);
      var k :| 0 <= k < |t| && t[k] == x;
      var rest := t[..k] + t[k + 1..];
      assert t == t[..k] + ([x] + t[k + 1..]);
      assert s == [x] + s[1..];
      assert multiset(rest) == multiset(t) - multiset{x};
      MapPermutation(s[1..], rest, f);
      MapConcat([x], s[1..], f);
      MapConcat(t[..k], [x] + t[k + 1..], f);
      MapConcat([x], t[k + 1..], f);
      MapConcat(t[..k], t[k + 1..], f);
    }
  }

  /** The concatenation of `f` over the elements, in order. */
  function FlatMap<T, U>(s: seq<T>, f: T -> seq<U>): seq<U>
    decreases |s|
  {
    if |s| == 0 then [] else f(s[0]) + FlatMap(s[1..], f)
  }

  lemma {:induction false} FlatMapConcat<T, U>(a: seq<T>, b: seq<T>, f: T -> seq<U>)
    ensures FlatMap(a + b, f) == FlatMap(a, f) + FlatMap(b, f)
    decreases |a|
  {
    if |a| == 0 {
      assert a + b == b;
    } else {
      assert (a + b)[0] == a[0] && (a + b)[1..] == a[1..] + b;
      FlatMapConcat(a[1..], b, f);
    }
  }

  /** Concatenating over a reordering gives a reordering of the
      concatenation. */
  lemma {:induction false} FlatMapPermutation<T, U>(s: seq<T>, t: seq<T>, f: T -> seq<U>)
    requires multiset(s) == multiset(t)
    ensures multiset(FlatMap(s, f)) == multiset(FlatMap(t, f))
    decreases |s|
  {
    if |s| == 0 {
      assert |t| == |multiset(t)| == 0;
    } else {
      var before, after := PermutationSplit(s, t);
      FlatMapPermutation(s[1..], before + after, f);
      FlatMapSplit(before, s[0], after, f);
      FlatMapConcat(before, after, f);
    }
  }

  /** Where the first element of `s` sits in a reordering `t` of it. */
  lemma PermutationSplit<T>(s: seq<T>, t: seq<T>) returns (before: seq<T>, after: seq<T>)
    requires |s| > 0 && multiset(s) == multiset(t)
    ensures t == before + ([s[0]] + after)
    ensures multiset(s[1..]) == multiset(before + after)
  {
    var x := s[0];
    assert x in multiset(t);
    var k :| 0 <= k < |t| && t[k] == x;
    before, after := t[..k], t[k + 1..];
    assert t == before + ([x] + after);
    assert s == [x] + s[1..];
    assert multiset(before + after) == multiset(t) - multiset{x};
  }

  lemma FlatMapSplit<T, U>(before: seq<T>, x: T, after: seq<T>, f: T -> seq<U>)
    ensures FlatMap(before + ([x] + after), f) == FlatMap(before, f) + (f(x) + FlatMap(after, f))
  {
    FlatMapConcat(before, [x] + after, f);
    assert ([x] + after)[1..] == after;
  }

  /** An output of the concatenation comes from some input, and every output
      of every input is in the concatenation. */
  lemma {:induction false} FlatMapMembers<T, U>(s: seq<T>, f: T -> seq<U>)
    ensures forall y :: y in FlatMap(s, f) <==> exists x :: x in s && y in f(x)
    decreases |s|
  {
    if |s| > 0 {
      FlatMapMembers(s[1..], f);
      assert forall x :: x in s <==> x == s[0] || x in s[1..];
    }
  }

  /** The concatenation is as long as the total of the parts' lengths. */
  lemma {:induction false} FlatMapLength<T, U>(s: seq<T>, f: T -> seq<U>, size: T -> nat)
    requires forall x :: x in s ==> |f(x)| == size(x)
    ensures |FlatMap(s, f)| == Sum(s, size)
    decreases |s|
  {
    if |s| > 0 {
      assert forall x :: x in s[1..] ==> x in s;
      FlatMapLength(s[1..], f, size);
    }
  }

  lemma {:induction false} FlatMapContains<T, U>(s: seq<T>, f: T -> seq<U>, x: T, y: U)
    requires x in s && y in f(x)
    ensures y in FlatMap(s, f)
    decreases |s|
  {
    if s[0] != x {
      FlatMapContains(s[1..], f, x, y);
    }
  }

  /** The part of the concatenation that comes before element `k`. */
  function Offset<T, U>(s: seq<T>, f: T -> seq<U>, k: nat): nat
    requires k <= |s|
  {
    |FlatMap(s[..k], f)|
  }

  /** The outputs of element `k` sit, contiguously, right after those of the
      elements before it. */
  lemma FlatMapBlock<T, U>(s: seq<T>, f: T -> seq<U>, k: nat)
    requires k < |s|
    ensures Offset(s, f, k + 1) == Offset(s, f, k) + |f(s[k])| <= |FlatMap(s, f)|
    ensures FlatMap(s, f)[Offset(s, f, k)..Offset(s, f, k + 1)] == f(s[k])
  {
    assert s == s[..k] + ([s[k]] + s[k + 1..]);
    assert s[..k + 1] == s[..k] + [s[k]];
    assert FlatMap([s[k]], f) == f(s[k]) by {
      assert [s[k]][1..] == [];
    }
    FlatMapConcat(s[..k], [s[k]], f);
    FlatMapConcat(s[..k], [s[k]] + s[k + 1..], f);
    FlatMapConcat([s[k]], s[k + 1..], f);
  }

  /** The element whose outputs include output `n`. */
  lemma {:induction false} FlatMapSource<T, U>(s: seq<T>, f: T -> seq<U>, n: nat) returns (m: nat)
    requires n < |FlatMap(s, f)|
    ensures m < |s| && FlatMap(s, f)[n] in f(s[m])
    decreases |s|
  {
    if n < |f(s[0])| {
      m := 0;
    } else {
      var m' := FlatMapSource(s[1..], f, n - |f(s[0])|);
      m := m' + 1;
    }
  }

  /** When each element's outputs all carry the element's own key and the
      elements are sorted by key, the concatenation is sorted by key. */
  lemma {:induction false} FlatMapSorted<T, U>(s: seq<T>, f: T -> seq<U>, rank: T -> seq<int>, tag: U -> seq<int>)
    requires SortedBy(s, rank)
    requires forall x, y :: x in s && y in f(x) ==> tag(y) == rank(x)
    ensures SortedBy(FlatMap(s, f), tag)
    decreases |s|
  {
    if |s| > 0 {
      var head, rest := f(s[0]), FlatMap(s[1..], f);
      SortedTail(s, rank);
      assert forall x :: x in s[1..] ==> x in s;
      FlatMapSorted(s[1..], f, rank, tag);
      var r := head + rest;
      forall i, j | 0 <= i < j < |r|
        ensures KeyLe(tag(r[i]), tag(r[j]))
      {
        if j < |head| {
          assert r[i] in head && r[j] in head;
          KeyLeReflexive(rank(s[0]));
        } else if i < |head| {
          assert r[i] in head;
          assert r[j] == rest[j - |head|];
          var m := FlatMapSource(s[1..], f, j - |head|);
          assert s[1..][m] == s[m + 1];
        } else {
          assert r[i] == rest[i - |head|] && r[j] == rest[j - |head|];
        }
      }
    }
  }
}

=== FILE: text.dfy ===
/** The pieces of .NET string handling the extractor and exporter rely on:
    `string.IsNullOrWhiteSpace`, ordinal case-insensitive `StartsWith`,
    single-character `Replace`, `string.Join` and `int.ToString()`. */
module Text {
  import opened Wrappers

  /** `char.IsWhiteSpace`: the Unicode space, line and paragraph separators
      plus the control characters U+0009..U+000D and U+0085. */
  predicate IsWhiteSpace(c: char) {
    || c == ' '
    || ('\t' <= c <= '\r')
    || c == '\U{85}'
    || c == '\U{A0}'
    || c == '\U{1680}'
    || ('\U{2000}' <= c <= '\U{200A}')
    || c == '\U{2028}'
    || c == '\U{2029}'
    || c == '\U{202F}'
    || c == '\U{205F}'
    || c == '\U{3000}'
  }

  /** `string.IsNullOrWhiteSpace`: absent, empty, or whitespace only. */
  predicate IsBlank(s: Option<string>) {
    s.None? || forall i :: 0 <= i < |s.value| ==> IsWhiteSpace(s.value[i])
  }

  /** Case folding for ordinal case-insensitive comparison (ASCII letters). */
  function FoldCase(c: char): (r: char)
    ensures 'a' <= c <= 'z' ==> 'A' <= r <= 'Z'
    ensures !('a' <= c <= 'z') ==> r == c
  {
    if 'a' <= c <= 'z' then (c as int - 32) as char else c
  }

  /** `s.StartsWith(prefix, StringComparison.OrdinalIgnoreCase)`. */
  predicate StartsWithIgnoreCase(s: string, prefix: string) {
    |prefix| <= |s| && forall i :: 0 <= i < |prefix| ==> FoldCase(s[i]) == FoldCase(prefix[i])
  }

  /** `s.Replace(from, to)` for single characters. */
  function ReplaceChar(s: string, from: char, to: char): (r: string)
    ensures |r| == |s|
    ensures forall i :: 0 <= i < |s| ==> r[i] == (if s[i] == from then to else s[i])
  {
    seq(|s|, i requires 0 <= i < |s| => if s[i] == from then to else s[i])
  }

  /** `string.Join(sep, parts)`. */
  function Join(sep: string, parts: seq<string>): (r: string)
    ensures |parts| == 0 ==> r == ""
    ensures |parts| == 1 ==> r == parts[0]
    ensures |parts| > 1 ==> r == parts[0] + sep + Join(sep, parts[1..])
  {
    if |parts| == 0 then ""
    else if |parts| == 1 then parts[0]
    else parts[0] + sep + Join(sep, parts[1..])
  }

  /** The number of occurrences of `c` in `s`. */
  function Count(s: string, c: char): (n: nat)
    ensures n <= |s|
  {
    if |s| == 0 then 0 else (if s[0] == c then 1 else 0) + Count(s[1..], c)
  }

  /** How the exporters render a flag. */
  function YesNo(b: bool): (r: string)
    ensures r == "Yes" || r == "No"
    ensures r == "Yes" <==> b
  {
    if b then "Yes" else "No"
  }

  /** The string contains no double-quote character. */
  predicate QuoteFree(s: string) {
    forall i :: 0 <= i < |s| ==> s[i] != '"'
  }

  predicate IsDigit(c: char) {
    '0' <= c <= '9'
  }

  function DigitChar(d: nat): (c: char)
    requires d < 10
    ensures IsDigit(c)
  {
    ('0' as int + d) as char
  }

  function DigitValue(c: char): (d: nat)
    requires IsDigit(c)
    ensures d < 10
  {
    c as int - '0' as int
  }

  /** Decimal digits of a natural number, most significant first. */
  function NatToString(n: nat): (r: string)
    ensures |r| > 0
    ensures forall i :: 0 <= i < |r| ==> IsDigit(r[i])
  {
    if n < 10 then [DigitChar(n)] else NatToString(n / 10) + [DigitChar(n % 10)]
  }

  /** `int.ToString()`: decimal digits, led by '-' when negative. */
  function IntToString(n: int): (r: string)
    ensures |r| > 0
    ensures forall i :: 0 <= i < |r| ==> IsDigit(r[i]) || (i == 0 && r[i] == '-')
  {
    if n < 0 then "-" + NatToString(-n) else NatToString(n)
  }

  /** Reads back a string of decimal digits. */
  function ParseNat(s: string): (n: nat)
    requires forall i :: 0 <= i < |s| ==> IsDigit(s[i])
  {
    if |s| == 0 then 0 else 10 * ParseNat(s[..|s| - 1]) + DigitValue(s[|s| - 1])
  }

  /** An optional minus sign followed by decimal digits. */
  predicate IsIntText(s: string) {
    |s| > 0 && forall i :: 0 <= i < |s| ==> IsDigit(s[i]) || (i == 0 && s[i] == '-')
  }

  /** Reads back the text `IntToString` writes. */
  function ParseInt(s: string): int
    requires IsIntText(s)
  {
    if s[0] == '-' then -(ParseNat(s[1..]) as int) else ParseNat(s)
  }

  lemma {:induction false} NatToStringRoundTrip(n: nat)
    ensures ParseNat(NatToString(n)) == n
  {
    var r := NatToString(n);
    if n >= 10 {
      NatToStringRoundTrip(n / 10);
      assert r[..|r| - 1] == NatToString(n / 10);
    }
  }

  /** `s` is the text of the integer `n`. */
  predicate ReadsAs(s: string, n: int) {
    IsIntText(s) && ParseInt(s) == n
  }

  /** The number text of a cell reads back as the number written. */
  lemma IntToStringRoundTrip(n: int)
    ensures ReadsAs(IntToString(n), n)
  {
    if n < 0 {
      NatToStringRoundTrip(-n);
      assert IntToString(n)[1..] == NatToString(-n);
    } else {
      NatToStringRoundTrip(n);
    }
  }
}

=== FILE: wrappers.dfy ===
/** Optional values and failure-carrying results: C#'s nullable references and
    thrown exceptions, made explicit. */
module Wrappers {

  /** A value that may be absent: `null` in the source. */
  datatype Option<+T> = None | Some(value: T) {

    /** The wrapped value, or `default` when absent (C#'s `??`). */
    function GetOr(default: T): (r: T)
      ensures Some? ==> r == value
      ensures None? ==> r == default
    {
      match this
      case Some(v) => v
      case None => default
    }

    /** The first present value of `this` and `other` (C#'s `a ?? b` on nullables). */
    function OrElse(other: Option<T>): (r: Option<T>)
      ensures r.Some? <==> Some? || other.Some?
      ensures Some? ==> r == this
      ensures None? ==> r == other
    {
      if Some? then this else other
    }
  }

  /** The outcome of an operation that may throw. */
  datatype Result<+R, +E> = Success(value: R) | Failure(error: E)
}
